=== FILE: README.md ===
# Flexible slider: transition engine and autoplay, in Dafny

This project models the state machine at the heart of `slider.js`, the
ES5 "flexible slider". A slider owns a list of built slides. It shows one of
them at a time and moves between them when the user clicks prev, next, a
slide's direct control, play or pause, or when the autoplay timeout fires.

A move is the `slide()` step:

- Every slide that is "current" but no longer showing gets the outgoing
  classes. A one-shot `transitionend` listener is attached to it, and a
  `slideOutgoing` event is dispatched.
- The showing slide, unless it is already current, gets a `slideIncoming`
  event, plus a 30 ms timeout that lands it as current.
- While an outgoing slide is animating, `allowSliding` is false. Further
  requests only overwrite the showing index and the direction.
- `afterSlide` clears the outgoing slide and schedules a 10 ms settle step.
  That step re-allows sliding, replays `slide()` on the latest request and
  re-arms autoplay.

Every operation is a pure function over one immutable `SliderState.State`.
Pending asynchronous callbacks are tokens in that state:

- `ticks`: the 30 ms incoming timeouts;
- `listeners`: the `transitionend` listeners;
- `settles`: the 10 ms settle steps;
- `timers`: the live autoplay timeouts, by handle;
- `timeout`: the `autoPlayTimeout` variable, which `clearTimeout` never
  resets.

`Slider.Step` is one click or one delivery of a scheduled callback.
`Slider.Run` runs a sequence of such steps in any interleaving.
`Slider.PromptRun` runs them under the assumption that every pending 30 ms
tick fires before the next input.

Modules follow the source's structure:

- `Indices`: index arithmetic of `sliderNext`/`sliderPrev`/`sliderGoTo`;
- `Transition`: `slide()` and `afterSlide`;
- `Navigation`: the three navigation calls;
- `AutoPlay`: `maybeAutoPlay`, `pauseAutoPlay`, `playAutoPlay`;
- `Slider`: the constructor, the click handlers and the callbacks;
- `Invariants`: the two safety properties;
- `Coalescing`: requests made during a transition;
- `Scenarios`: two end-to-end runs, each from the constructor.

What is proved about it:

- **At most one autoplay timeout is live, in every interleaving.**
  `maybeAutoPlay` itself never cancels a live timeout, and
  `AutoPlay.MaybeAutoPlayStacks` shows that calling it with one live would
  leave two. It is only ever reached from the constructor and the settle
  step, though. The settle step sets `allowSliding` before it calls
  `slide()`, so that `slide()` always runs and always clears the stored
  handle first.
- **At most one slide is current and at most one is outgoing, provided each
  30 ms tick fires before the next input.** Without that ordering the
  property fails. `Invariants.RacyTicksTwoCurrent` exhibits the run: a
  click on next within 30 ms of construction leaves slides 0 and 1 both
  current.
- **Requests during a transition coalesce.** While sliding is blocked, each
  request only moves the showing index and the direction; a blocked
  next/prev moves the index the following request starts from. The settle
  step then replays `slide()` once, on the index and direction the whole
  sequence of requests left behind.

In these places the code does something a reader might not expect, and the
model follows the code:

- `maybeAutoPlay` arms a timeout without checking for a live one.
- `pauseAutoPlay` and `slide()` cancel only the handle stored in
  `autoPlayTimeout`.
- With zero slides, `sliderNext` sets the showing index to 0 and
  `sliderPrev` sets it to -1. These are not no-ops: `slide()` still clears
  the stored timeout, although it touches no slide.

## Model

| member | source | states |
|---|---|---|
| Indices.NextIndex | slider.js:181-185 | the next index wraps forward: it is `(showing + 1) mod n` for any index in `[-1, n)`, 0 after the last slide, and 0 when there are no slides |
| Indices.PrevIndex | slider.js:190-194 | the previous index wraps backward: `(showing - 1) mod n` inside the range, the last slide from 0 or from the initial -1, and -1 when there are no slides |
| Indices.GoToDir | slider.js:175 | a direct jump goes forward exactly when the target index is above the showing one |
| Indices.NextPrevInverse | slider.js:181-194 | stepping forward then back, or back then forward, returns to the same slide |
| Indices.NextTimesWraps | slider.js:181-185 | k forward steps from slide i land on `(i + k) mod n` |
| Indices.PrevTimesWraps | slider.js:190-194 | k backward steps from slide i land on `(i - k) mod n` |
| Indices.FullCycle | slider.js:181-194 | n steps in either direction come back to the starting slide |
| SliderState.Cancel | slider.js:213-215 | clearing the stored handle removes exactly that timeout and keeps every other live one with its delay |
| SliderState.OneTimerAtMostOne | slider.js:199-207 | when every live timeout is the stored one, at most one timeout is live |
| Transition.Depart | slider.js:256-264 | an outgoing slide gains the outgoing class (and the reverse variant when moving in reverse), loses current and enter-from-reverse, and its control loses current |
| Transition.Arrive | slider.js:234-238 | an incoming slide gains enter-from-reverse only when moving in reverse; nothing else about it changes yet |
| Transition.Land | slider.js:241-246 | the 30 ms tick makes the slide slideable and current and its control current, and changes no other class |
| Transition.Finish | slider.js:285-288 | after its transition an outgoing slide loses slideable and both outgoing classes and keeps current and enter-from-reverse as they were |
| Transition.SweepUpTo | slider.js:233-281 | the loop over the first `k` slides yields exactly one resulting slide per visited slide; what each one is, and which listeners, ticks and events the loop adds, is stated by `SweepSlides`, `SweepDeparted`, `SweepListeners`, `SweepTicks`, `SweepNotices` and `SweepNoticesOrdered` |
| Transition.SweepSlides | slider.js:233-281 | the loop over the slides sends out each departing slide, brings in the arriving one, and leaves every other slide untouched |
| Transition.SweepDeparted | slider.js:256-257 | the loop blocks sliding exactly when some slide other than the showing one was current |
| Transition.SweepListeners | slider.js:256-273 | the loop attaches exactly one transitionend listener to each departing slide and none to any other |
| Transition.SweepTicks | slider.js:234-247 | the loop schedules exactly one tick, for the showing slide, and only when it arrives |
| Transition.SweepNotices | slider.js:252-278 | the loop dispatches an outgoing event exactly for the departing slides and an incoming event exactly for the arriving one |
| Transition.SweepNoticesOrdered | slider.js:233-281 | the loop dispatches its events in increasing slide order, each for a slide it has visited |
| Transition.Slide | slider.js:225-282 | blocked, the step changes nothing. Otherwise it clears the stored timeout, sends out every current non-showing slide, brings in the showing slide unless it is current, and blocks sliding exactly when something departed. It adds one listener per departure and a tick for the arrival, appends exactly the matching events in slide order, and changes nothing else |
| Transition.SlideQuiet | slider.js:225-282 | a step with nothing to send out and nothing to bring in only clears the stored timeout |
| Transition.AfterSlide | slider.js:284-300 | for a slide still carrying the outgoing class, only that slide's animation classes are cleared and one settle step is scheduled; for any other slide nothing happens |
| Navigation.GoTo | slider.js:173-179 | a jump to the showing slide does nothing at all; any other jump sets the index and the direction (forward iff the target is above) before the slide step; while blocked only index and direction change |
| Navigation.Next | slider.js:181-188 | the index wraps forward and the direction is forward even when the index does not change; while blocked only index and direction change |
| Navigation.Prev | slider.js:190-197 | the index wraps backward and the direction is reverse; while blocked only index and direction change |
| AutoPlay.MaybeAutoPlay | slider.js:199-207 | when playing, a fresh timeout with the configured delay is armed and stored, and every live timeout stays live; when paused, nothing happens |
| AutoPlay.MaybeAutoPlayStacks | slider.js:199-207 | arming while a timeout is live leaves two live timeouts, so the function alone does not keep the one-timer invariant |
| AutoPlay.PauseAutoPlay | slider.js:209-216 | pausing turns autoplay off and cancels exactly the stored timeout; under the one-timer invariant none is left live |
| AutoPlay.PlayAutoPlay | slider.js:218-223 | playing turns autoplay on and runs the slide step on the next index in the forward direction; when not blocked that clears the stored timeout, and it never arms a new one itself |
| Slider.Initial | slider.js:41-45 | a new slider has its slides unmarked, showing index -1, sliding allowed and autoplay off |
| Slider.Construct | slider.js:31-55 | the constructor shows slide 0 moving forward with no transition in flight; with autoplay exactly one timeout with the configured delay is live, under handle 0, without it none is; the delay is the configured one; well-formedness and the one-timer invariant hold |
| Slider.ConstructShowsFirst | slider.js:44-54 | construction dispatches exactly one event, slide 0's incoming event, and leaves slide 0's tick pending; no slide has any class yet; with no slides it dispatches nothing |
| Slider.FirstSlide | slider.js:233-253 | the first slide step of an unmarked slider logs exactly slide 0's incoming event, sends nothing out, changes no slide yet, and does not block |
| Slider.StartsAtFirst | slider.js:181-188 | the first `sliderNext` of a slider that has shown nothing yet shows slide 0 moving forward, without blocking, with no listener and no timeout, and leaves the state well-formed |
| Slider.Tick | slider.js:241-247 | the incoming tick lands its slide as current, is spent, and touches no other slide |
| Slider.TransitionEnd | slider.js:265-273 | the listener is spent; on an outgoing slide only that slide loses its outgoing and animation classes and one settle step is scheduled, every other slide and field is unchanged and sliding stays blocked; on any other slide nothing else changes |
| Slider.Settle | slider.js:289-297 | the settle step keeps index, direction, autoplay and the configured delay and replays the slide step: exactly the current non-showing slides go out and get a listener, the showing slide comes in with a tick unless already current, the other slides are unchanged, and exactly those events are appended, in slide order. It unblocks unless something went out. When playing it clears the stored timeout and stores a fresh one with the configured delay under the next handle; under the one-timer invariant exactly that one is live when playing and none when paused. It never moves the handle counter back and keeps the one-timer invariant |
| Slider.SettleFrame | slider.js:289-297 | the settle step changes no field besides the slide step's own, the settle count and the autoplay timeout; when paused it keeps the stored handle and the handle counter |
| Slider.Timeout | slider.js:202-204 | the fired timeout is spent and the slide step runs on the next index in the forward direction; during a transition only the index and direction change, otherwise the stored timeout is cleared as well |
| Slider.ClickPrev | slider.js:121-125 | the prev control pauses autoplay, leaves no timeout live, and runs the slide step on the previous index with reverse direction |
| Slider.ClickNext | slider.js:126-130 | the next control pauses autoplay, leaves no timeout live, and runs the slide step on the next index in the forward direction |
| Slider.ClickDirect | slider.js:163-167 | a direct control pauses autoplay, leaves no timeout live, and runs the slide step on its slide; clicking the showing slide's control only pauses autoplay |
| Slider.Step | slider.js:120-139 | prev, next and direct clicks leave autoplay off; the play click leaves it on |
| Slider.Flush | slider.js:241-247 | delivering every pending tick lands exactly the slides that had one and nothing else |
| Slider.FlushAbsorbsTick | slider.js:241-247 | the order in which pending ticks fire does not matter |
| Invariants.SlideKeepsWf | slider.js:225-282 | the slide step keeps indices and pending callbacks pointing at real slides |
| Invariants.MaybeAutoPlayKeepsWf | slider.js:199-207 | arming keeps every live handle below the handle counter |
| Invariants.StepKeepsWf | slider.js:120-139 | every click and every callback keeps the state well-formed |
| Invariants.ClickKeepsWf | slider.js:120-139 | every control click keeps the state well-formed |
| Invariants.CallbackKeepsWf | slider.js:241-297 | every tick, transitionend, settle step and autoplay timeout keeps the state well-formed |
| Invariants.SlideKeepsOneTimer | slider.js:229-231 | the slide step keeps every live timeout equal to the stored one |
| Invariants.StepKeepsOneTimer | slider.js:289-297 | every click and callback keeps every live timeout equal to the stored one |
| Invariants.RunKeepsInvariants | slider.js:199-231 | well-formedness and the one-timer invariant survive any sequence of inputs |
| Invariants.ReachableOneTimer | slider.js:31-55 | from construction, in every interleaving, at most one autoplay timeout is live and the showing index names a slide |
| Invariants.SlideThenTickCurrent | slider.js:233-262 | after an unblocked slide step and its tick, only the showing slide can be current |
| Invariants.SlideThenTickOutgoing | slider.js:256-264 | from a state with no outgoing slide, exactly the departing slides are outgoing after the step and none of them is current |
| Invariants.SlideFromIdle | slider.js:225-282 | a slide step from an idle slider, with its tick delivered, keeps at most one slide current and the slider in one orderly phase |
| Invariants.SlideKeepsOrderly | slider.js:225-282 | the slide step, with its tick delivered, keeps the slider in one orderly phase |
| Invariants.TransitionEndSettles | slider.js:284-300 | the outgoing slide's transitionend moves the slider from animating to settling |
| Invariants.StepKeepsOrderly | slider.js:120-139 | every click and callback, with ticks delivered promptly, keeps at most one current slide and one orderly phase |
| Invariants.PromptRunKeepsOrderly | slider.js:225-300 | the orderly phase structure survives any sequence of inputs with prompt ticks |
| Invariants.ReachableOneCurrent | slider.js:241-262 | from construction, with prompt ticks, at most one slide is current and at most one is outgoing |
| Invariants.OrderlyOneOutgoing | slider.js:256-262 | in an orderly state at most one slide is outgoing |
| Invariants.ConstructOrderly | slider.js:31-55 | once its tick fires, a newly constructed slider is idle with only slide 0 current |
| Invariants.RacyTicksTwoCurrent | slider.js:241-247 | a next click before slide 0's tick fires leaves two current slides once both ticks fire |
| Invariants.NextBeforeTick | slider.js:181-188 | a next click while slide 0's tick is still pending schedules a second tick, for slide 1 |
| Invariants.TwoTicksLand | slider.js:241-246 | when ticks for slides 0 and 1 are both pending, delivering them makes both slides current |
| Coalescing.BlockedRequest | slider.js:226-228 | during a transition a request changes only the showing index and the direction |
| Coalescing.BlockedRequests | slider.js:226-228 | during a transition any sequence of requests changes only the index and direction, to those the last request computed |
| Coalescing.LatestRequestWins | slider.js:292-295 | the settle step after blocked requests equals a settle with only the index and direction those requests left behind, and brings in only that slide |
| Coalescing.SupersededRequestsForgotten | slider.js:292-295 | two request sequences with the same final target are indistinguishable after settling |
| Coalescing.RequestsSurviveTransitionEnd | slider.js:284-300 | requests made before and after the outgoing slide's transitionend coalesce as one sequence |
| Scenarios.QuietStart | slider.js:51-54 | three slides without autoplay: slide 0 alone is current, only its incoming event was dispatched, and no timeout is live |
| Scenarios.JumpToThird | slider.js:163-167 | clicking the third slide's control moves forward, dispatches exactly slide 0 outgoing then slide 2 incoming, and blocks sliding |
| Scenarios.JumpClasses | slider.js:256-273 | the jump sends slide 0 out with the only listener, schedules the only tick for slide 2, and blocks sliding |
| Scenarios.JumpNotices | slider.js:252-278 | the jump dispatches exactly slide 0's outgoing event and then slide 2's incoming event |
| Scenarios.JumpSettles | slider.js:284-300 | slide 0's transitionend and the settle step leave it with no animation class, slide 2 alone current, sliding allowed, no new event |
| Scenarios.AutoPlayStart | slider.js:47-50 | two slides with autoplay: slide 0 is current and exactly one timeout with the configured delay is live |
| Scenarios.AutoPlayAdvances | slider.js:202-204 | the timeout moves forward to slide 1, logs exactly slide 0 outgoing then slide 1 incoming, and no timeout is live during the transition |
| Scenarios.AutoPlayRearms | slider.js:289-297 | once that transition settles, exactly one fresh timeout with the configured delay is live |
| Scenarios.AutoPlayClasses | slider.js:256-273 | the autoplay step sends slide 0 out with the only listener, schedules the only tick for slide 1, and blocks sliding |
| Scenarios.AutoPlayNotices | slider.js:252-278 | the autoplay step dispatches exactly slide 0's outgoing event and then slide 1's incoming event |
| Scenarios.JumpRun | slider.js:163-167 | from slide 0 at rest, the direct click on slide 2, slide 0's transitionend and the settle step leave slide 2 alone current, sliding allowed, no timeout, and exactly two new events |
| Scenarios.JumpScenario | slider.js:31-55 | from construction without autoplay on three slides, that prompt run logs exactly slide 0 in, slide 0 out, slide 2 in, and ends with slide 2 alone current and sliding allowed |
| Scenarios.AutoPlayRun | slider.js:202-204 | from slide 0 at rest with autoplay, the timeout, slide 0's transitionend and the settle step leave slide 1 alone current and one fresh timeout live with the configured delay |
| Scenarios.AutoPlayScenario | slider.js:31-55 | from construction with autoplay on two slides, that prompt run logs exactly slide 0 in, slide 0 out, slide 1 in, and ends with slide 1 alone current and one timeout live under handle 1 |
| Scenarios.DefaultAutoPlayScenario | slider.js:33-36 | with the default options and autoplay on, the same run ends with slide 1 alone current and one timeout live under handle 1 with the default 6000 ms delay |

## Left out

- Building the DOM (`buildSlider`, `buildSlide`): the built slides are given
  as a count. The image-versus-clone choice and the control elements have no
  effect on the state machine.
- `findSliders` and the option merging in the constructor: the options are
  a `Config`; `SliderState.DefaultConfig` holds the source's defaults
  (autoplay off, 6000 ms), and `Scenarios.DefaultAutoPlayScenario` uses it.
- The container's `slider-playing`/`slider-paused` classes: they are
  presentation only and nothing reads them.
- Event objects, `preventDefault` and event bubbling: a dispatched event is
  a `Notice` appended to a log.
- Durations (30 ms, 10 ms, the autoplay delay, the CSS transition): a
  callback is a pending token that the environment may deliver at any
  time. Only the delay value stored with each autoplay timeout is kept.
- `slideDirection` before the first navigation is undefined in the source.
  It is modelled as Forward, which is how `slide()` treats an undefined
  direction (it tests for -1 only).
- `autoPlaying` before the first play or pause is undefined and is
  modelled as false. The constructor sets it before anything reads it.
- `transitionend` events fired for other properties, or bubbling from
  children, are not modelled. A listener fires once, on its own slide.
  `afterSlide`'s check for the outgoing class covers the stray case.
- Slider.Step: only the direct controls' indices are restricted (to real
  slides, as the controls are built one per slide). `Navigation.GoTo`
  itself accepts any integer, as the source does.
- Slider.Step: its own contract states only what a click does to the
  autoplay flag. What each input does is stated by the member it
  dispatches to (`Slider.ClickPrev`, `Slider.Settle` and so on).
- Several sliders on one page: each instance has its own state and they
  share nothing the model needs, so one slider is modelled.

=== FILE: autoplay.dfy ===
/**
 * The autoplay coordinator: the `autoPlaying` flag and the autoplay timeout,
 * driven by `maybeAutoPlay`, `pauseAutoPlay` and `playAutoPlay`.
 */
module AutoPlay {
  import opened Options
  import opened SliderState
  import opened Indices
  import opened Transition
  import opened Navigation

  /**
   * `maybeAutoPlay`. When autoplay is on it arms a new timeout with the
   * configured delay and stores its handle; it does not look at, or cancel,
   * a timeout that is already live. When autoplay is off it does nothing.
   */
  function MaybeAutoPlay(s: State): (r: State)
    ensures !s.autoPlaying ==> r == s
    ensures s.autoPlaying ==>
              && r == s.(timeout := r.timeout, timers := r.timers, nextHandle := r.nextHandle)
              && r.timeout == Some(s.nextHandle) && r.nextHandle > s.nextHandle
              && s.nextHandle in r.timers && r.timers[s.nextHandle] == s.timing
              && (forall h :: h in r.timers <==> h in s.timers || h == s.nextHandle)
              && (forall h :: h in s.timers && h != s.nextHandle ==> r.timers[h] == s.timers[h])
  {
    if s.autoPlaying then
      s.(timeout := Some(s.nextHandle),
         timers := s.timers[s.nextHandle := s.timing],
         nextHandle := s.nextHandle + 1)
    else
      s
  }

  /**
   * Arming while a timeout is already live leaves two live timeouts: the
   * function relies on its callers to have cleared the previous one.
   */
  lemma MaybeAutoPlayStacks(s: State, h: nat)
    requires Wf(s) && s.autoPlaying && h in s.timers
    ensures |MaybeAutoPlay(s).timers| >= 2
    ensures !OneTimer(MaybeAutoPlay(s))
  {
    var r := MaybeAutoPlay(s);
    assert {h, s.nextHandle} <= r.timers.Keys;
    SubsetCard({h, s.nextHandle}, r.timers.Keys);
    assert r.timeout != Some(h);
  }

  /**
   * `pauseAutoPlay`: autoplay is off and the timeout whose handle is stored
   * is cancelled; nothing else changes. Under the one-timer invariant no
   * timeout is left live.
   */
  function PauseAutoPlay(s: State): (r: State)
    ensures !r.autoPlaying
    ensures r == s.(autoPlaying := false, timers := r.timers)
    ensures forall h :: h in r.timers <==> h in s.timers && s.timeout != Some(h)
    ensures OneTimer(s) ==> r.timers == map[]
  {
    s.(autoPlaying := false, timers := Cancel(s.timers, s.timeout))
  }

  /**
   * `playAutoPlay`: autoplay is on, then the slider steps to the next slide
   * in the forward direction.
   */
  function PlayAutoPlay(s: State): (r: State)
    ensures r.autoPlaying
    ensures r.showing == NextIndex(s.showing, |s.slides|) && r.dir == Forward
    ensures s.allowSliding ==> r.timers == Cancel(s.timers, s.timeout)
    ensures r.nextHandle == s.nextHandle && forall h :: h in r.timers ==> h in s.timers
    ensures !s.allowSliding ==> r == s.(autoPlaying := true, showing := r.showing, dir := Forward)
    ensures r == Slide(s.(autoPlaying := true, showing := r.showing, dir := Forward))
  {
    Next(s.(autoPlaying := true))
  }
}

=== FILE: coalescing.dfy ===
/**
 * Requests made while a transition is in flight are coalesced, not queued:
 * each one only overwrites the showing index and the direction, and the
 * settle step replays the slide step once, on whatever the last of them left
 * behind.
 */
module Coalescing {
  import opened SliderState
  import opened Indices
  import opened Transition
  import opened Navigation
  import opened AutoPlay
  import opened Slider

  /** A navigation call into the engine: `sliderNext`, `sliderPrev` or `sliderGoTo(t)`. */
  datatype Request = ToNext | ToPrev | ToSlide(t: int)

  function Navigate(s: State, q: Request): (r: State)
    ensures r.settles == s.settles && |r.slides| == |s.slides|
  {
    match q
    case ToNext => Next(s)
    case ToPrev => Prev(s)
    case ToSlide(t) => GoTo(s, t)
  }

  function NavigateAll(s: State, qs: seq<Request>): (r: State)
    ensures r.settles == s.settles && |r.slides| == |s.slides|
    decreases |qs|
  {
    if |qs| == 0 then s else NavigateAll(Navigate(s, qs[0]), qs[1..])
  }

  /** The showing index and direction a request leaves behind, from the index rules alone. */
  function Retarget(showing: int, dir: Dir, n: nat, q: Request): (int, Dir)
  {
    match q
    case ToNext => (NextIndex(showing, n), Forward)
    case ToPrev => (PrevIndex(showing, n), Reverse)
    case ToSlide(t) => if t == showing then (showing, dir) else (t, GoToDir(showing, t))
  }

  /** The showing index and direction after a whole sequence of requests. */
  function Latest(showing: int, dir: Dir, n: nat, qs: seq<Request>): (int, Dir)
    decreases |qs|
  {
    if |qs| == 0 then (showing, dir)
    else
      var (showing', dir') := Retarget(showing, dir, n, qs[0]);
      Latest(showing', dir', n, qs[1..])
  }

  /** While sliding is blocked a request changes the showing index and direction, and nothing else. */
  lemma BlockedRequest(s: State, q: Request)
    requires !s.allowSliding
    ensures var (showing', dir') := Retarget(s.showing, s.dir, |s.slides|, q);
            Navigate(s, q) == s.(showing := showing', dir := dir')
  {
  }

  /**
   * While sliding is blocked, any sequence of requests leaves the state as it
   * was except for the showing index and direction, which are those the
   * last request computed.
   */
  lemma {:induction false} BlockedRequests(s: State, qs: seq<Request>)
    requires !s.allowSliding
    ensures var (showing', dir') := Latest(s.showing, s.dir, |s.slides|, qs);
            NavigateAll(s, qs) == s.(showing := showing', dir := dir')
    decreases |qs|
  {
    if |qs| > 0 {
      BlockedRequest(s, qs[0]);
      BlockedRequests(Navigate(s, qs[0]), qs[1..]);
    }
  }

  /**
   * The settle step after blocked requests runs one slide step on the latest
   * showing index and direction: the only incoming event it dispatches is for
   * the last requested slide, so a superseded target is never brought in.
   */
  lemma LatestRequestWins(s: State, qs: seq<Request>)
    requires !s.allowSliding && s.settles > 0
    ensures var (showing', dir') := Latest(s.showing, s.dir, |s.slides|, qs);
            Settle(NavigateAll(s, qs)) == Settle(s.(showing := showing', dir := dir'))
    ensures var (showing', _) := Latest(s.showing, s.dir, |s.slides|, qs);
            var r := Settle(NavigateAll(s, qs));
            forall i :: SlideIncoming(i) in r.log[|s.log|..] ==> i == showing'
  {
    BlockedRequests(s, qs);
  }

  /**
   * Two request sequences during the same transition that end on the same
   * showing index and direction cannot be told apart once the slider settles.
   */
  lemma SupersededRequestsForgotten(s: State, qs1: seq<Request>, qs2: seq<Request>)
    requires !s.allowSliding && s.settles > 0
    requires Latest(s.showing, s.dir, |s.slides|, qs1) == Latest(s.showing, s.dir, |s.slides|, qs2)
    ensures Settle(NavigateAll(s, qs1)) == Settle(NavigateAll(s, qs2))
  {
    LatestRequestWins(s, qs1);
    LatestRequestWins(s, qs2);
  }

  /**
   * Requests made before the outgoing slide's transitionend are not lost:
   * the listener leaves the showing index and direction alone and keeps
   * sliding blocked, so later requests coalesce with them.
   */
  lemma RequestsSurviveTransitionEnd(s: State, o: int, qs1: seq<Request>, qs2: seq<Request>)
    requires !s.allowSliding
    requires 0 <= o < |s.slides| && Outgoing in s.slides[o].marks
    ensures var mid := TransitionEnd(NavigateAll(s, qs1), o);
            var (showing', dir') := Latest(s.showing, s.dir, |s.slides|, qs1 + qs2);
            NavigateAll(mid, qs2) == TransitionEnd(s, o).(showing := showing', dir := dir')
  {
    BlockedRequests(s, qs1);
    var (a, d) := Latest(s.showing, s.dir, |s.slides|, qs1);
    var mid := TransitionEnd(NavigateAll(s, qs1), o);
    assert mid == TransitionEnd(s, o).(showing := a, dir := d);
    BlockedRequests(mid, qs2);
    LatestAppend(s.showing, s.dir, |s.slides|, qs1, qs2);
  }

  lemma {:induction false} LatestAppend(showing: int, dir: Dir, n: nat, qs1: seq<Request>, qs2: seq<Request>)
    ensures var (a, d) := Latest(showing, dir, n, qs1);
            Latest(showing, dir, n, qs1 + qs2) == Latest(a, d, n, qs2)
    decreases |qs1|
  {
    if |qs1| > 0 {
      assert (qs1 + qs2)[1..] == qs1[1..] + qs2;
      var (showing', dir') := Retarget(showing, dir, n, qs1[0]);
      LatestAppend(showing', dir', n, qs1[1..], qs2);
    } else {
      assert qs1 + qs2 == qs2;
    }
  }
}

=== FILE: indices.dfy ===
/**
 * The index arithmetic of `sliderNext`, `sliderPrev` and `sliderGoTo`: which
 * slide becomes the showing one, and in which direction it arrives.
 */
module Indices {
  import opened SliderState

  /** `sliderNext`: step forward; past the last slide, wrap to the first. */
  function NextIndex(showing: int, n: nat): (r: int)
    ensures n >= 1 && -1 <= showing < n ==> 0 <= r < n && r == (showing + 1) % n
    ensures n >= 1 && showing == n - 1 ==> r == 0
    ensures n == 0 && -1 <= showing ==> r == 0
  {
    if n - 1 < showing + 1 then 0 else showing + 1
  }

  /** `sliderPrev`: step back; before the first slide, wrap to the last. */
  function PrevIndex(showing: int, n: nat): (r: int)
    ensures n >= 1 && -1 <= showing < n ==> 0 <= r < n
    ensures n >= 1 && 0 <= showing < n ==> r == (showing - 1 + n) % n
    ensures n >= 1 && (showing == -1 || showing == 0) ==> r == n - 1
    ensures n == 0 && showing <= 0 ==> r == -1
  {
    if 0 > showing - 1 then n - 1 else showing - 1
  }

  /** `sliderGoTo`: the direction of a jump from `from` to `to`. */
  function GoToDir(from: int, to: int): (r: Dir)
    ensures r == Forward <==> from < to
  {
    if from < to then Forward else Reverse
  }

  /** Stepping forward then back (or back then forward) returns to a slide. */
  lemma NextPrevInverse(showing: int, n: nat)
    requires 0 <= showing < n
    ensures PrevIndex(NextIndex(showing, n), n) == showing
    ensures NextIndex(PrevIndex(showing, n), n) == showing
  {
  }

  /** The showing index after `k` consecutive `sliderNext` calls. */
  function NextTimes(showing: int, n: nat, k: nat): int
  {
    if k == 0 then showing else NextIndex(NextTimes(showing, n, k - 1), n)
  }

  /** The showing index after `k` consecutive `sliderPrev` calls. */
  function PrevTimes(showing: int, n: nat, k: nat): int
  {
    if k == 0 then showing else PrevIndex(PrevTimes(showing, n, k - 1), n)
  }

  lemma ModSucc(a: int, n: nat)
    requires n >= 1
    ensures (a % n + 1) % n == (a + 1) % n
  {
    var q := a / n;
    assert a == q * n + a % n;
    if a % n + 1 < n {
      assert a + 1 == q * n + (a % n + 1);
      assert a % n + 1 == 0 * n + (a % n + 1);
      ModOfMultiple(0, n, a % n + 1);
      ModOfMultiple(q, n, a % n + 1);
    } else {
      assert (q + 1) * n == q * n + n;
      assert a + 1 == (q + 1) * n + 0;
      assert a % n + 1 == 1 * n + 0;
      ModOfMultiple(1, n, 0);
      ModOfMultiple(q + 1, n, 0);
    }
  }

  lemma ModPred(a: int, n: nat)
    requires n >= 1
    ensures (a % n - 1 + n) % n == (a - 1) % n
  {
    var q := a / n;
    assert a == q * n + a % n;
    if a % n >= 1 {
      assert a - 1 == q * n + (a % n - 1);
      assert a % n - 1 + n == 1 * n + (a % n - 1);
      ModOfMultiple(1, n, a % n - 1);
      ModOfMultiple(q, n, a % n - 1);
    } else {
      assert a - 1 == (q - 1) * n + (n - 1);
      assert a % n - 1 + n == 0 * n + (n - 1);
      ModOfMultiple(0, n, n - 1);
      ModOfMultiple(q - 1, n, n - 1);
    }
  }

  lemma ModOfMultiple(q: int, n: nat, r: int)
    requires n >= 1 && 0 <= r < n
    ensures (q * n + r) % n == r
  {
    var a := q * n + r;
    var d := q - a / n;
    assert a == (a / n) * n + a % n;
    assert d * n == a % n - r;
    if d >= 1 {
      MulAtLeast(d, n);
    } else if d <= -1 {
      MulAtLeast(-d, n);
    }
  }

  lemma MulAtLeast(d: int, n: nat)
    requires d >= 1
    ensures d * n >= n
  {
    assert d * n == (d - 1) * n + n;
    assert (d - 1) * n >= 0;
  }

  /**
   * From a slide, `k` next steps land `k` places further on, modulo the
   * number of slides: the index never leaves [0, n) and wraps at the end.
   */
  lemma {:induction false} NextTimesWraps(showing: int, n: nat, k: nat)
    requires 0 <= showing < n
    ensures NextTimes(showing, n, k) == (showing + k) % n
  {
    if k == 0 {
      ModOfMultiple(0, n, showing);
    } else {
      NextTimesWraps(showing, n, k - 1);
      ModSucc(showing + k - 1, n);
    }
  }

  /** From a slide, `k` prev steps land `k` places back, modulo the number of slides. */
  lemma {:induction false} PrevTimesWraps(showing: int, n: nat, k: nat)
    requires 0 <= showing < n
    ensures PrevTimes(showing, n, k) == (showing - k) % n
  {
    if k == 0 {
      ModOfMultiple(0, n, showing);
    } else {
      PrevTimesWraps(showing, n, k - 1);
      ModPred(showing - k + 1, n);
    }
  }

  /** `n` next steps (or `n` prev steps) bring the slider back to where it was. */
  lemma FullCycle(showing: int, n: nat)
    requires 0 <= showing < n
    ensures NextTimes(showing, n, n) == showing
    ensures PrevTimes(showing, n, n) == showing
  {
    NextTimesWraps(showing, n, n);
    PrevTimesWraps(showing, n, n);
    ModOfMultiple(1, n, showing);
    assert showing - n == (-1) * n + showing;
    ModOfMultiple(-1, n, showing);
  }
}

=== FILE: invariants.dfy ===
/**
 * What holds of every reachable slider state.
 *
 * Whatever order the environment delivers callbacks in, at most one autoplay
 * timeout is live, because every arming (`maybeAutoPlay` in the settle step
 * and in the constructor) comes straight after the stored timeout was
 * cancelled or before any timeout exists.
 *
 * At most one slide is current, and transitions run one at a time, only
 * under prompt ticks: every 30 ms incoming tick fires before the next click
 * or callback. Without that ordering two slides can end up current
 * (`RacyTicksTwoCurrent`).
 */
module Invariants {
  import opened Options
  import opened SliderState
  import opened Indices
  import opened Transition
  import opened Navigation
  import opened AutoPlay
  import opened Slider

  /* ---------- well-formedness ---------- */

  lemma SlideKeepsWf(s: State)
    requires Wf(s)
    ensures Wf(Slide(s))
  {
    var r := Slide(s);
    if s.allowSliding {
      forall i | i in r.listeners
        ensures 0 <= i < |r.slides|
      {
        assert r.listeners[i] == s.listeners[i] + (if Departs(s.slides, s.showing, i) then 1 else 0);
      }
    }
  }

  lemma MaybeAutoPlayKeepsWf(s: State)
    requires Wf(s)
    ensures Wf(MaybeAutoPlay(s))
  {
  }

  /** Every click and every callback delivery keeps the state well formed. */
  lemma StepKeepsWf(s: State, a: Input)
    requires Wf(s) && Enabled(s, a)
    ensures Wf(Step(s, a))
  {
    if a.PrevClicked? || a.NextClicked? || a.DirectClicked? || a.PlayClicked? || a.PauseClicked? {
      ClickKeepsWf(s, a);
    } else {
      CallbackKeepsWf(s, a);
    }
  }

  lemma ClickKeepsWf(s: State, a: Input)
    requires Wf(s) && Enabled(s, a)
    requires a.PrevClicked? || a.NextClicked? || a.DirectClicked? || a.PlayClicked? || a.PauseClicked?
    ensures Wf(Step(s, a))
  {
    match a
    case PrevClicked =>
      SlideKeepsWf(PauseAutoPlay(s).(showing := PrevIndex(s.showing, |s.slides|), dir := Reverse));
    case NextClicked =>
      SlideKeepsWf(PauseAutoPlay(s).(showing := NextIndex(s.showing, |s.slides|), dir := Forward));
    case DirectClicked(t) =>
      if t != s.showing {
        SlideKeepsWf(PauseAutoPlay(s).(showing := t, dir := GoToDir(s.showing, t)));
      }
    case PlayClicked =>
      SlideKeepsWf(s.(autoPlaying := true, showing := NextIndex(s.showing, |s.slides|), dir := Forward));
    case PauseClicked =>
  }

  lemma CallbackKeepsWf(s: State, a: Input)
    requires Wf(s) && Enabled(s, a)
    requires a.TickFires? || a.TransitionEnds? || a.SettleFires? || a.TimeoutFires?
    ensures Wf(Step(s, a))
  {
    match a
    case TickFires(i) =>
    case TransitionEnds(i) =>
    case SettleFires =>
      var u := s.(settles := s.settles - 1, allowSliding := true);
      SlideKeepsWf(u);
      MaybeAutoPlayKeepsWf(Slide(u));
    case TimeoutFires(h) =>
      SlideKeepsWf(s.(timers := s.timers - {h}, showing := NextIndex(s.showing, |s.slides|), dir := Forward));
  }

  /* ---------- one live autoplay timeout ---------- */

  lemma SlideKeepsOneTimer(s: State)
    requires OneTimer(s)
    ensures OneTimer(Slide(s))
  {
  }

  /**
   * Every click and every callback delivery, in any order, keeps every live
   * autoplay timeout equal to the stored one.
   */
  lemma StepKeepsOneTimer(s: State, a: Input)
    requires OneTimer(s) && Enabled(s, a)
    ensures OneTimer(Step(s, a))
  {
    match a
    case PrevClicked =>
      SlideKeepsOneTimer(PauseAutoPlay(s).(showing := PrevIndex(s.showing, |s.slides|), dir := Reverse));
    case NextClicked =>
      SlideKeepsOneTimer(PauseAutoPlay(s).(showing := NextIndex(s.showing, |s.slides|), dir := Forward));
    case DirectClicked(t) =>
      if t != s.showing {
        SlideKeepsOneTimer(PauseAutoPlay(s).(showing := t, dir := GoToDir(s.showing, t)));
      }
    case PlayClicked =>
      SlideKeepsOneTimer(s.(autoPlaying := true, showing := NextIndex(s.showing, |s.slides|), dir := Forward));
    case PauseClicked =>
    case TickFires(i) =>
    case TransitionEnds(i) =>
    case SettleFires =>
    case TimeoutFires(h) =>
      SlideKeepsOneTimer(s.(timers := s.timers - {h}, showing := NextIndex(s.showing, |s.slides|), dir := Forward));
  }

  lemma {:induction false} RunKeepsInvariants(s: State, inputs: seq<Input>)
    requires Wf(s) && OneTimer(s)
    ensures Wf(Run(s, inputs)) && OneTimer(Run(s, inputs))
    decreases |inputs|
  {
    if |inputs| > 0 {
      var next := if Enabled(s, inputs[0]) then Step(s, inputs[0]) else s;
      if Enabled(s, inputs[0]) {
        StepKeepsWf(s, inputs[0]);
        StepKeepsOneTimer(s, inputs[0]);
      }
      RunKeepsInvariants(next, inputs[1..]);
    }
  }

  /**
   * From construction, after any sequence of clicks and callback deliveries
   * in any order, at most one autoplay timeout is live and the showing index
   * stays in range.
   */
  lemma ReachableOneTimer(cfg: Config, n: nat, inputs: seq<Input>)
    ensures |Run(Construct(cfg, n), inputs).timers| <= 1
    ensures Wf(Run(Construct(cfg, n), inputs))
    ensures n >= 1 ==> 0 <= Run(Construct(cfg, n), inputs).showing < n
  {
    var c := Construct(cfg, n);
    RunKeepsInvariants(c, inputs);
    RunLength(c, inputs);
    OneTimerAtMostOne(Run(c, inputs));
  }

  lemma {:induction false} RunLength(s: State, inputs: seq<Input>)
    ensures |Run(s, inputs).slides| == |s.slides|
    decreases |inputs|
  {
    if |inputs| > 0 {
      var next := if Enabled(s, inputs[0]) then Step(s, inputs[0]) else s;
      if Enabled(s, inputs[0]) {
        StepLength(s, inputs[0]);
      }
      RunLength(next, inputs[1..]);
    }
  }

  /* ---------- one current slide, one transition at a time ---------- */

  ghost predicate NoOutgoing(s: State)
  {
    forall i :: 0 <= i < |s.slides| ==> Outgoing !in s.slides[i].marks
  }

  /** No transition in flight. */
  ghost predicate Idle(s: State)
  {
    s.allowSliding && NoOutgoing(s) && s.listeners == multiset{} && s.settles == 0
  }

  /** Slide `o` is animating out; its transitionend listener is the only one. */
  ghost predicate Animating(s: State, o: int)
  {
    && !s.allowSliding
    && 0 <= o < |s.slides|
    && !IsCurrent(s, o)
    && (forall i :: 0 <= i < |s.slides| ==> (Outgoing in s.slides[i].marks <==> i == o))
    && s.listeners == multiset{o}
    && s.settles == 0
  }

  /** The outgoing animation has ended; one settle step is pending. */
  ghost predicate Settling(s: State)
  {
    !s.allowSliding && NoOutgoing(s) && s.listeners == multiset{} && s.settles == 1
  }

  /**
   * No tick is pending, at most one slide is current, and the slider is in
   * exactly one phase of at most one transition.
   */
  ghost predicate Orderly(s: State)
  {
    && s.ticks == multiset{}
    && AtMostOneCurrent(s)
    && (Idle(s) || (exists o :: Animating(s, o)) || Settling(s))
  }

  /** Two states that agree on everything `Orderly` reads. */
  ghost predicate SameCore(a: State, b: State)
  {
    a.slides == b.slides && a.allowSliding == b.allowSliding && a.ticks == b.ticks
    && a.listeners == b.listeners && a.settles == b.settles
  }

  lemma SameSlidesCurrent(a: State, b: State)
    requires a.slides == b.slides && AtMostOneCurrent(a)
    ensures AtMostOneCurrent(b)
  {
    forall i, j | IsCurrent(b, i) && IsCurrent(b, j)
      ensures i == j
    {
      assert IsCurrent(a, i) && IsCurrent(a, j);
    }
  }

  lemma OrderlyCore(a: State, b: State)
    requires SameCore(a, b) && Orderly(a)
    ensures Orderly(b)
  {
    SameSlidesCurrent(a, b);
    if !Idle(a) && !Settling(a) {
      var o :| Animating(a, o);
      assert Animating(b, o);
    }
  }

  lemma FlushNothing(s: State)
    requires s.ticks == multiset{}
    ensures Flush(s) == s
  {
    assert Flush(s).slides == s.slides;
  }

  /** After the slide step and its tick, only the showing slide can be current. */
  lemma SlideThenTickCurrent(s: State)
    requires s.ticks == multiset{}
    ensures forall i :: IsCurrent(Flush(Slide(s)), i) && s.allowSliding ==> i == s.showing
  {
    var r := Slide(s);
    var f := Flush(r);
    forall i | IsCurrent(f, i) && s.allowSliding
      ensures i == s.showing
    {
      if i !in r.ticks && !Departs(s.slides, s.showing, i) && !Arrives(s.slides, s.showing, i) {
        assert r.slides[i] == s.slides[i];
      }
    }
  }

  /** After the slide step and its tick, exactly the departing slides carry the outgoing class. */
  lemma SlideThenTickOutgoing(s: State)
    requires s.ticks == multiset{} && s.allowSliding && NoOutgoing(s)
    ensures |Flush(Slide(s)).slides| == |s.slides|
    ensures forall i :: 0 <= i < |s.slides| ==>
                          (Outgoing in Flush(Slide(s)).slides[i].marks <==> Departs(s.slides, s.showing, i))
    ensures forall i :: Departs(s.slides, s.showing, i) ==> !IsCurrent(Flush(Slide(s)), i)
  {
    var r := Slide(s);
    var f := Flush(r);
    forall i | 0 <= i < |s.slides|
      ensures Outgoing in f.slides[i].marks <==> Departs(s.slides, s.showing, i)
      ensures Departs(s.slides, s.showing, i) ==> !IsCurrent(f, i)
    {
      if Departs(s.slides, s.showing, i) {
        assert r.slides[i] == Depart(s.slides[i], s.dir);
        assert i !in r.ticks;
      } else if Arrives(s.slides, s.showing, i) {
        assert r.slides[i] == Arrive(s.slides[i], s.dir);
      } else {
        assert r.slides[i] == s.slides[i];
      }
    }
  }

  /**
   * The slide step from an idle state with at most one current slide, once
   * its tick has fired, leaves the slider idle (nothing went out) or
   * animating exactly one outgoing slide, with at most one current slide.
   */
  lemma SlideFromIdle(s: State)
    requires s.ticks == multiset{} && AtMostOneCurrent(s) && Idle(s)
    ensures Orderly(Flush(Slide(s)))
  {
    var r := Slide(s);
    var f := Flush(r);
    SlideThenTickCurrent(s);
    SlideThenTickOutgoing(s);
    assert AtMostOneCurrent(f);
    if exists o :: Departs(s.slides, s.showing, o) {
      var o :| Departs(s.slides, s.showing, o);
      assert IsCurrent(s, o);
      forall i | Departs(s.slides, s.showing, i)
        ensures i == o
      {
        assert IsCurrent(s, i);
      }
      assert forall i :: f.listeners[i] == (if i == o then 1 else 0);
      assert f.listeners == multiset{o};
      assert Animating(f, o);
    } else {
      assert forall i :: f.listeners[i] == 0;
      assert f.listeners == multiset{};
      assert Idle(f);
    }
  }

  /**
   * A slide step on an orderly state, once its tick has fired, leaves it
   * orderly: while a transition is in flight the step changes nothing.
   */
  lemma SlideKeepsOrderly(s: State)
    requires Orderly(s)
    ensures Orderly(Flush(Slide(s)))
  {
    if s.allowSliding {
      SlideFromIdle(s);
    } else {
      FlushNothing(s);
    }
  }

  /** The transitionend listener of the animating slide fires: the slider is settling. */
  lemma TransitionEndSettles(s: State, o: int)
    requires s.ticks == multiset{} && AtMostOneCurrent(s) && Animating(s, o)
    ensures Orderly(Flush(TransitionEnd(s, o)))
    ensures Settling(TransitionEnd(s, o))
  {
    var r := TransitionEnd(s, o);
    FlushNothing(r);
    assert IsCurrent(r, o) == IsCurrent(s, o);
    forall i | IsCurrent(r, i)
      ensures IsCurrent(s, i)
    {
      if i != o {
        assert r.slides[i] == s.slides[i];
      }
    }
    assert Settling(r);
  }

  /**
   * Every click and every callback delivery, followed by the ticks it
   * scheduled, keeps the slider orderly.
   */
  lemma StepKeepsOrderly(s: State, a: Input)
    requires Orderly(s) && Enabled(s, a)
    ensures Orderly(Flush(Step(s, a)))
  {
    match a
    case PrevClicked =>
      var x := PauseAutoPlay(s).(showing := PrevIndex(s.showing, |s.slides|), dir := Reverse);
      OrderlyCore(s, x);
      SlideKeepsOrderly(x);
    case NextClicked =>
      var x := PauseAutoPlay(s).(showing := NextIndex(s.showing, |s.slides|), dir := Forward);
      OrderlyCore(s, x);
      SlideKeepsOrderly(x);
    case DirectClicked(t) =>
      if t != s.showing {
        var x := PauseAutoPlay(s).(showing := t, dir := GoToDir(s.showing, t));
        OrderlyCore(s, x);
        SlideKeepsOrderly(x);
      } else {
        OrderlyCore(s, PauseAutoPlay(s));
        FlushNothing(PauseAutoPlay(s));
      }
    case PlayClicked =>
      var x := s.(autoPlaying := true, showing := NextIndex(s.showing, |s.slides|), dir := Forward);
      OrderlyCore(s, x);
      SlideKeepsOrderly(x);
    case PauseClicked =>
      OrderlyCore(s, PauseAutoPlay(s));
      FlushNothing(PauseAutoPlay(s));
    case TickFires(i) =>
      assert false;
    case TransitionEnds(i) =>
      var o :| Animating(s, o);
      assert i == o;
      TransitionEndSettles(s, o);
    case SettleFires =>
      assert Settling(s);
      var u := s.(settles := s.settles - 1, allowSliding := true);
      assert Idle(u);
      SameSlidesCurrent(s, u);
      SlideFromIdle(u);
      OrderlyCore(Flush(Slide(u)), Flush(MaybeAutoPlay(Slide(u))));
    case TimeoutFires(h) =>
      var x := s.(timers := s.timers - {h}, showing := NextIndex(s.showing, |s.slides|), dir := Forward);
      OrderlyCore(s, x);
      SlideKeepsOrderly(x);
  }

  lemma {:induction false} PromptRunKeepsOrderly(s: State, inputs: seq<Input>)
    requires Orderly(s)
    ensures Orderly(PromptRun(s, inputs))
    decreases |inputs|
  {
    if |inputs| > 0 {
      if Enabled(s, inputs[0]) {
        StepKeepsOrderly(s, inputs[0]);
      }
      PromptRunKeepsOrderly(if Enabled(s, inputs[0]) then Flush(Step(s, inputs[0])) else s, inputs[1..]);
    }
  }

  /**
   * From construction, when every incoming tick fires before the next input,
   * at most one slide is ever current, and at most one slide is ever
   * animating out.
   */
  lemma ReachableOneCurrent(cfg: Config, n: nat, inputs: seq<Input>)
    ensures AtMostOneCurrent(PromptRun(Flush(Construct(cfg, n)), inputs))
    ensures AtMostOneOutgoing(PromptRun(Flush(Construct(cfg, n)), inputs))
  {
    var f := Flush(Construct(cfg, n));
    ConstructOrderly(cfg, n);
    PromptRunKeepsOrderly(f, inputs);
    OrderlyOneOutgoing(PromptRun(f, inputs));
  }

  /** At most one slide carries the outgoing class. */
  ghost predicate AtMostOneOutgoing(s: State)
  {
    forall i, j ::
      (0 <= i < |s.slides| && 0 <= j < |s.slides| &&
       Outgoing in s.slides[i].marks && Outgoing in s.slides[j].marks) ==> i == j
  }

  lemma OrderlyOneOutgoing(s: State)
    requires Orderly(s)
    ensures AtMostOneOutgoing(s)
  {
    if !Idle(s) && !Settling(s) {
      var o :| Animating(s, o);
    }
  }

  /** Once the constructor's tick has fired the slider is idle with slide 0 (if any) current. */
  lemma ConstructOrderly(cfg: Config, n: nat)
    ensures Orderly(Flush(Construct(cfg, n)))
    ensures Idle(Flush(Construct(cfg, n)))
    ensures n >= 1 ==> IsCurrent(Flush(Construct(cfg, n)), 0)
  {
    ConstructShowsFirst(cfg, n);
    BlankFlush(Construct(cfg, n));
  }

  /** Unmarked slides with at most slide 0's tick pending are idle once it fires. */
  lemma BlankFlush(c: State)
    requires forall i :: 0 <= i < |c.slides| ==> c.slides[i] == BuiltSlide({}, false)
    requires forall i :: i in c.ticks ==> i == 0
    requires c.allowSliding && c.listeners == multiset{} && c.settles == 0
    ensures Orderly(Flush(c)) && Idle(Flush(c))
  {
    var f := Flush(c);
    forall i | IsCurrent(f, i)
      ensures i == 0
    {
      assert i in c.ticks;
    }
    assert Idle(f);
  }

  lemma StepLength(s: State, a: Input)
    requires Enabled(s, a)
    ensures |Step(s, a).slides| == |s.slides|
  {
  }

  /**
   * Without prompt ticks the invariant fails: a click on next within 30 ms of
   * construction schedules a second tick before the first has fired, and
   * once both fire two slides are current.
   */
  lemma RacyTicksTwoCurrent(cfg: Config, n: nat)
    requires n >= 2
    ensures var s := Run(Construct(cfg, n), [NextClicked, TickFires(0), TickFires(1)]);
            IsCurrent(s, 0) && IsCurrent(s, 1) && !AtMostOneCurrent(s)
  {
    var c := Construct(cfg, n);
    RacyClick(cfg, n);
    var inputs := [NextClicked, TickFires(0), TickFires(1)];
    assert Enabled(c, NextClicked);
    assert inputs[1..] == [TickFires(0), TickFires(1)];
    assert Run(c, inputs) == Run(Step(c, NextClicked), [TickFires(0), TickFires(1)]);
    TwoTicksLand(Step(c, NextClicked));
  }

  /** With ticks pending for slides 0 and 1, delivering both makes both current. */
  lemma TwoTicksLand(s: State)
    requires |s.slides| >= 2 && s.ticks == multiset{0, 1}
    ensures var r := Run(s, [TickFires(0), TickFires(1)]);
            IsCurrent(r, 0) && IsCurrent(r, 1) && !AtMostOneCurrent(r)
  {
    var inputs := [TickFires(0), TickFires(1)];
    var s2 := Step(s, TickFires(0));
    assert s2.ticks == multiset{1};
    var s3 := Step(s2, TickFires(1));
    assert IsCurrent(s3, 0) && IsCurrent(s3, 1);
    assert Run(s3, inputs[2..]) == s3;
    assert Run(s2, inputs[1..]) == s3;
  }

  /** The click on next while slide 0's tick is pending: slide 1 gets a tick too. */
  lemma RacyClick(cfg: Config, n: nat)
    requires n >= 2
    ensures Step(Construct(cfg, n), NextClicked).ticks == multiset{0, 1}
    ensures |Step(Construct(cfg, n), NextClicked).slides| == n
  {
    ConstructShowsFirst(cfg, n);
    NextBeforeTick(Construct(cfg, n));
  }

  /** A next click on a fresh slider whose first tick is pending schedules a tick for slide 1. */
  lemma NextBeforeTick(c: State)
    requires |c.slides| >= 2 && c.showing == 0 && c.allowSliding && c.ticks == multiset{0}
    requires forall i :: 0 <= i < |c.slides| ==> c.slides[i] == BuiltSlide({}, false)
    ensures Step(c, NextClicked).ticks == multiset{0, 1}
    ensures |Step(c, NextClicked).slides| == |c.slides|
  {
    var p := PauseAutoPlay(c);
    var x := p.(showing := 1, dir := Forward);
    assert Step(c, NextClicked) == Slide(x);
    assert Arrives(x.slides, 1, 1);
  }
}

=== FILE: navigation.dfy ===
/**
 * `sliderGoTo`, `sliderNext` and `sliderPrev`: each sets the showing index and
 * the direction, then runs the slide step (except a jump to the slide already
 * showing, which does nothing at all).
 */
module Navigation {
  import opened SliderState
  import opened Indices
  import opened Transition

  /**
   * `sliderGoTo(t)`. Nothing happens when `t` is already the showing index.
   * Otherwise `t` becomes the showing index, the direction is Forward exactly
   * when the old index was below `t`, and the slide step runs on that state.
   */
  function GoTo(s: State, t: int): (r: State)
    ensures t == s.showing ==> r == s
    ensures t != s.showing ==> r.showing == t && (r.dir == Forward <==> s.showing < t)
    ensures t != s.showing ==> r == Slide(s.(showing := t, dir := r.dir))
    ensures !s.allowSliding ==> r == s.(showing := r.showing, dir := r.dir)
  {
    if s.showing != t then Slide(s.(showing := t, dir := GoToDir(s.showing, t))) else s
  }

  /**
   * `sliderNext`: the index steps forward with wrap-around, the direction is
   * Forward, and the slide step runs even when the index did not change.
   */
  function Next(s: State): (r: State)
    ensures r.showing == NextIndex(s.showing, |s.slides|) && r.dir == Forward
    ensures r == Slide(s.(showing := r.showing, dir := Forward))
    ensures !s.allowSliding ==> r == s.(showing := r.showing, dir := Forward)
  {
    Slide(s.(showing := NextIndex(s.showing, |s.slides|), dir := Forward))
  }

  /**
   * `sliderPrev`: the index steps back with wrap-around, the direction is
   * Reverse, and the slide step runs even when the index did not change.
   */
  function Prev(s: State): (r: State)
    ensures r.showing == PrevIndex(s.showing, |s.slides|) && r.dir == Reverse
    ensures r == Slide(s.(showing := r.showing, dir := Reverse))
    ensures !s.allowSliding ==> r == s.(showing := r.showing, dir := Reverse)
  {
    Slide(s.(showing := PrevIndex(s.showing, |s.slides|), dir := Reverse))
  }
}

=== FILE: scenarios.dfy ===
/**
 * Two end-to-end runs of a slider, each with every tick delivered before the
 * next input: a jump from the first to the third of three slides, and an
 * autoplay step on two slides. Each step is proved on its own, and the steps
 * are then chained into one `PromptRun` from the constructed slider.
 */
module Scenarios {
  import opened Options
  import opened SliderState
  import opened Indices
  import opened Transition
  import opened Navigation
  import opened AutoPlay
  import opened Slider
  import opened Invariants

  /**
   * Three slides, no autoplay. Construction brings slide 0 in with no
   * outgoing event; once its tick fires slide 0 alone is current.
   */
  lemma QuietStart(cfg: Config, n: nat)
    requires !cfg.autoPlay && n == 3
    ensures var f := Flush(Construct(cfg, n));
            && IsCurrent(f, 0) && !IsCurrent(f, 1) && !IsCurrent(f, 2)
            && f.log == [SlideIncoming(0)]
            && f.allowSliding && !f.autoPlaying && f.timers == map[]
  {
    ConstructShowsFirst(cfg, n);
  }

  /**
   * From there, a click on the third slide's control: the direction is
   * Forward, slide 0 goes out and slide 2 comes in, in that order, and
   * sliding is blocked until slide 0's transition ends.
   */
  lemma JumpToThird(f: State)
    requires |f.slides| == 3 && f.showing == 0 && f.allowSliding && f.ticks == multiset{}
    requires f.listeners == multiset{} && f.settles == 0 && f.timers == map[]
    requires IsCurrent(f, 0) && !IsCurrent(f, 1) && !IsCurrent(f, 2)
    requires forall i :: 0 <= i < 3 ==> Outgoing !in f.slides[i].marks
    ensures var s := Step(f, DirectClicked(2));
            && s.showing == 2 && s.dir == Forward && !s.allowSliding
            && s.log == f.log + [SlideOutgoing(0), SlideIncoming(2)]
            && s.listeners == multiset{0} && s.ticks == multiset{2}
            && Outgoing in s.slides[0].marks && !IsCurrent(s, 0) && !IsCurrent(s, 1)
            && s.settles == 0 && s.timers == map[] && !s.autoPlaying
  {
    var x := PauseAutoPlay(f).(showing := 2, dir := Forward);
    assert Step(f, DirectClicked(2)) == Slide(x);
    JumpClasses(x);
    JumpNotices(x);
  }

  /** The slide step of the jump: one listener on slide 0, one tick for slide 2. */
  lemma JumpClasses(x: State)
    requires |x.slides| == 3 && x.showing == 2 && x.allowSliding
    requires x.ticks == multiset{} && x.listeners == multiset{}
    requires IsCurrent(x, 0) && !IsCurrent(x, 1) && !IsCurrent(x, 2)
    ensures var s := Slide(x);
            && !s.allowSliding && s.listeners == multiset{0} && s.ticks == multiset{2}
            && Outgoing in s.slides[0].marks && !IsCurrent(s, 0) && !IsCurrent(s, 1)
  {
    var s := Slide(x);
    assert Departs(x.slides, 2, 0) && Arrives(x.slides, 2, 2);
    forall i | Departs(x.slides, 2, i)
      ensures i == 0
    {
    }
    assert forall i :: s.listeners[i] == (if i == 0 then 1 else 0);
    assert s.listeners == multiset{0};
  }

  /** The events of the jump: slide 0 outgoing, then slide 2 incoming, and nothing else. */
  lemma JumpNotices(x: State)
    requires |x.slides| == 3 && x.showing == 2 && x.allowSliding
    requires IsCurrent(x, 0) && !IsCurrent(x, 1) && !IsCurrent(x, 2)
    ensures Slide(x).log == x.log + [SlideOutgoing(0), SlideIncoming(2)]
  {
    var s := Slide(x);
    assert Departs(x.slides, 2, 0) && !Departs(x.slides, 2, 1) && !Departs(x.slides, 2, 2);
    assert Arrives(x.slides, 2, 2);
    var added := s.log[|x.log|..];
    assert SlideOutgoing(0) in added && SlideIncoming(2) in added;
    NoticesExactly(added, 0, 2);
    assert s.log == x.log + added;
  }

  /**
   * Strictly ordered notices drawn from {out `o`, in `i`}, with `o < i`, that
   * contain both are exactly those two.
   */
  lemma NoticesExactly(ns: seq<Notice>, o: int, i: int)
    requires o < i && SlideOutgoing(o) in ns && SlideIncoming(i) in ns
    requires forall e :: e in ns ==> e == SlideOutgoing(o) || e == SlideIncoming(i)
    requires forall a, b :: 0 <= a < b < |ns| ==> ns[a].slide < ns[b].slide
    ensures ns == [SlideOutgoing(o), SlideIncoming(i)]
  {
    if |ns| > 2 {
      FirstThree(ns);
      assert false;
    }
    var a :| 0 <= a < |ns| && ns[a] == SlideOutgoing(o);
    var b :| 0 <= b < |ns| && ns[b] == SlideIncoming(i);
    if b < a {
      assert false;
    }
  }

  /** The first three entries of a sequence are among its members. */
  lemma FirstThree(ns: seq<Notice>)
    requires |ns| > 2
    ensures ns[0] in ns && ns[1] in ns && ns[2] in ns
  {
  }

  /**
   * The transitionend of slide 0 and then the settle step: slide 0 has lost
   * every outgoing and animation class, slide 2 is the only current slide,
   * and sliding is allowed again.
   */
  lemma JumpSettles(s: State)
    requires |s.slides| == 3 && s.showing == 2 && !s.allowSliding && s.settles == 0
    requires !s.autoPlaying && OneTimer(s) && s.ticks == multiset{}
    requires s.listeners == multiset{0}
    requires Outgoing in s.slides[0].marks && !IsCurrent(s, 0) && !IsCurrent(s, 1) && IsCurrent(s, 2)
    ensures var e := Step(s, TransitionEnds(0));
            && e.settles == 1 && !e.allowSliding && e.ticks == multiset{}
            && Enabled(e, SettleFires)
            && var d := Step(e, SettleFires);
               && d.allowSliding && d.settles == 0 && d.timers == map[]
               && Outgoing !in d.slides[0].marks && OutgoingReverse !in d.slides[0].marks
               && Slideable !in d.slides[0].marks
               && !IsCurrent(d, 0) && !IsCurrent(d, 1) && IsCurrent(d, 2)
               && d.log == s.log && d.ticks == multiset{} && !d.autoPlaying
  {
    var e := Step(s, TransitionEnds(0));
    assert e == AfterSlide(s.(listeners := multiset{}), 0);
    var u := e.(settles := 0, allowSliding := true);
    assert forall i :: !Departs(u.slides, 2, i) && !Arrives(u.slides, 2, i);
    SlideQuiet(u);
  }

  /**
   * Two slides with autoplay: construction shows slide 0 and arms exactly one
   * timeout with the configured delay.
   */
  lemma AutoPlayStart(cfg: Config, n: nat)
    requires cfg.autoPlay && n == 2
    ensures var f := Flush(Construct(cfg, n));
            && IsCurrent(f, 0) && !IsCurrent(f, 1) && f.autoPlaying
            && f.timers == map[0 := cfg.autoPlayTiming] && f.timeout == Some(0)
            && f.allowSliding && f.listeners == multiset{} && f.settles == 0
            && f.timing == cfg.autoPlayTiming && f.nextHandle == 1
  {
    ConstructShowsFirst(cfg, n);
  }

  /**
   * The timeout fires: slide 0 goes out and slide 1 comes in, in that order,
   * and no timeout is live while the transition runs.
   */
  lemma AutoPlayAdvances(f: State)
    requires |f.slides| == 2 && f.showing == 0 && f.allowSliding && f.autoPlaying
    requires f.ticks == multiset{} && f.listeners == multiset{} && f.settles == 0
    requires f.timers == map[0 := f.timing] && f.timeout == Some(0)
    requires IsCurrent(f, 0) && !IsCurrent(f, 1)
    ensures var s := Flush(Step(f, TimeoutFires(0)));
            && s.showing == 1 && s.dir == Forward && !s.allowSliding && s.timers == map[]
            && IsCurrent(s, 1) && !IsCurrent(s, 0) && s.listeners == multiset{0}
            && Outgoing in s.slides[0].marks && s.autoPlaying && s.settles == 0
            && s.ticks == multiset{} && s.nextHandle == f.nextHandle
            && s.log == f.log + [SlideOutgoing(0), SlideIncoming(1)]
  {
    var x := f.(timers := map[], showing := 1, dir := Forward);
    assert Step(f, TimeoutFires(0)) == Slide(x);
    AutoPlayClasses(x);
    AutoPlayNotices(x);
  }

  /** The slide step of the autoplay advance: one listener on slide 0, one tick for slide 1. */
  lemma AutoPlayClasses(x: State)
    requires |x.slides| == 2 && x.showing == 1 && x.allowSliding
    requires x.ticks == multiset{} && x.listeners == multiset{}
    requires IsCurrent(x, 0) && !IsCurrent(x, 1)
    ensures var s := Slide(x);
            && !s.allowSliding && s.listeners == multiset{0} && s.ticks == multiset{1}
            && Outgoing in s.slides[0].marks && !IsCurrent(s, 0)
  {
    var s := Slide(x);
    assert Departs(x.slides, 1, 0) && Arrives(x.slides, 1, 1);
    forall i | Departs(x.slides, 1, i)
      ensures i == 0
    {
    }
    assert forall i :: s.listeners[i] == (if i == 0 then 1 else 0);
    assert s.listeners == multiset{0};
  }

  /** The events of the autoplay advance: slide 0 outgoing, then slide 1 incoming, and nothing else. */
  lemma AutoPlayNotices(x: State)
    requires |x.slides| == 2 && x.showing == 1 && x.allowSliding
    requires IsCurrent(x, 0) && !IsCurrent(x, 1)
    ensures Slide(x).log == x.log + [SlideOutgoing(0), SlideIncoming(1)]
  {
    var s := Slide(x);
    assert Departs(x.slides, 1, 0) && !Departs(x.slides, 1, 1);
    assert Arrives(x.slides, 1, 1);
    var added := s.log[|x.log|..];
    assert SlideOutgoing(0) in added && SlideIncoming(1) in added;
    NoticesExactly(added, 0, 1);
    assert s.log == x.log + added;
  }

  /**
   * When that transition has ended and settled, exactly one new timeout
   * with the configured delay is live, stored under a fresh handle.
   */
  lemma AutoPlayRearms(s: State)
    requires |s.slides| == 2 && s.showing == 1 && !s.allowSliding && s.autoPlaying
    requires s.timers == map[] && s.settles == 0 && s.listeners == multiset{0} && s.ticks == multiset{}
    requires Outgoing in s.slides[0].marks && !IsCurrent(s, 0) && IsCurrent(s, 1)
    ensures var e := Step(s, TransitionEnds(0));
            && Enabled(e, SettleFires)
            && var d := Step(e, SettleFires);
               && d.allowSliding && d.showing == 1 && IsCurrent(d, 1) && !IsCurrent(d, 0)
               && d.timers == map[s.nextHandle := s.timing] && d.timeout == Some(s.nextHandle)
               && d.log == s.log && e.ticks == multiset{} && d.ticks == multiset{}
  {
    var e := Step(s, TransitionEnds(0));
    assert e == AfterSlide(s.(listeners := multiset{}), 0);
    var u := e.(settles := 0, allowSliding := true);
    assert forall i :: !Departs(u.slides, 1, i) && !Arrives(u.slides, 1, i);
    SlideQuiet(u);
  }

  /**
   * The whole jump as one prompt run from the constructed slider: the click
   * on the third control, slide 0's transitionend and the settle step leave
   * slide 2 alone current, sliding allowed, and exactly three events logged.
   */
  lemma JumpScenario(cfg: Config, n: nat)
    requires !cfg.autoPlay && n == 3
    ensures var r := PromptRun(Flush(Construct(cfg, n)), [DirectClicked(2), TransitionEnds(0), SettleFires]);
            && r.showing == 2 && r.allowSliding && !r.autoPlaying && r.timers == map[]
            && IsCurrent(r, 2) && !IsCurrent(r, 0) && !IsCurrent(r, 1)
            && r.log == [SlideIncoming(0), SlideOutgoing(0), SlideIncoming(2)]
  {
    var f := Flush(Construct(cfg, n));
    QuietStart(cfg, n);
    ConstructShowsFirst(cfg, n);
    assert forall i :: 0 <= i < 3 ==> Outgoing !in f.slides[i].marks;
    JumpRun(f);
  }

  /** The jump's three inputs from a slider showing slide 0 at rest. */
  lemma JumpRun(f: State)
    requires |f.slides| == 3 && f.showing == 0 && f.allowSliding && f.ticks == multiset{}
    requires f.listeners == multiset{} && f.settles == 0 && f.timers == map[] && !f.autoPlaying
    requires IsCurrent(f, 0) && !IsCurrent(f, 1) && !IsCurrent(f, 2)
    requires forall i :: 0 <= i < 3 ==> Outgoing !in f.slides[i].marks
    ensures var r := PromptRun(f, [DirectClicked(2), TransitionEnds(0), SettleFires]);
            && r.showing == 2 && r.allowSliding && !r.autoPlaying && r.timers == map[]
            && IsCurrent(r, 2) && !IsCurrent(r, 0) && !IsCurrent(r, 1)
            && r.log == f.log + [SlideOutgoing(0), SlideIncoming(2)]
  {
    JumpToThird(f);
    var s := Flush(Step(f, DirectClicked(2)));
    JumpSettles(s);
    var e := Step(s, TransitionEnds(0));
    FlushNothing(e);
    FlushNothing(Step(e, SettleFires));
    PromptRunThree(f, DirectClicked(2), TransitionEnds(0), SettleFires);
  }

  /**
   * The autoplay step as one prompt run from the constructed slider: the
   * timeout fires, slide 0's transition ends and the settle step runs; slide
   * 1 alone is current and one new timeout is live under handle 1.
   */
  lemma AutoPlayScenario(cfg: Config, n: nat)
    requires cfg.autoPlay && n == 2
    ensures var r := PromptRun(Flush(Construct(cfg, n)), [TimeoutFires(0), TransitionEnds(0), SettleFires]);
            && r.showing == 1 && r.allowSliding && r.autoPlaying
            && IsCurrent(r, 1) && !IsCurrent(r, 0)
            && r.timers == map[1 := cfg.autoPlayTiming] && r.timeout == Some(1)
            && r.log == [SlideIncoming(0), SlideOutgoing(0), SlideIncoming(1)]
  {
    var f := Flush(Construct(cfg, n));
    AutoPlayStart(cfg, n);
    ConstructShowsFirst(cfg, n);
    AutoPlayRun(f);
  }

  /**
   * The same run with the constructor's default options and autoplay turned
   * on: the timeout re-armed after the step has the default 6000 ms delay.
   */
  lemma DefaultAutoPlayScenario()
    ensures var r := PromptRun(Flush(Construct(DefaultConfig.(autoPlay := true), 2)),
                               [TimeoutFires(0), TransitionEnds(0), SettleFires]);
            && IsCurrent(r, 1) && !IsCurrent(r, 0)
            && r.timers == map[1 := 6000] && r.timeout == Some(1)
  {
    AutoPlayScenario(DefaultConfig.(autoPlay := true), 2);
  }

  /** The autoplay step's three inputs from a slider showing slide 0 at rest. */
  lemma AutoPlayRun(f: State)
    requires |f.slides| == 2 && f.showing == 0 && f.allowSliding && f.autoPlaying
    requires f.ticks == multiset{} && f.listeners == multiset{} && f.settles == 0
    requires f.timers == map[0 := f.timing] && f.timeout == Some(0)
    requires IsCurrent(f, 0) && !IsCurrent(f, 1)
    ensures var r := PromptRun(f, [TimeoutFires(0), TransitionEnds(0), SettleFires]);
            && r.showing == 1 && r.allowSliding && r.autoPlaying
            && IsCurrent(r, 1) && !IsCurrent(r, 0)
            && r.timers == map[f.nextHandle := f.timing] && r.timeout == Some(f.nextHandle)
            && r.log == f.log + [SlideOutgoing(0), SlideIncoming(1)]
  {
    AutoPlayAdvances(f);
    var s := Flush(Step(f, TimeoutFires(0)));
    AutoPlayRearms(s);
    var e := Step(s, TransitionEnds(0));
    FlushNothing(e);
    FlushNothing(Step(e, SettleFires));
    PromptRunThree(f, TimeoutFires(0), TransitionEnds(0), SettleFires);
  }

  /** A prompt run of three inputs, each enabled where it arrives, is their three steps in turn. */
  lemma PromptRunThree(s: State, a: Input, b: Input, c: Input)
    requires Enabled(s, a)
    requires Enabled(Flush(Step(s, a)), b)
    requires Enabled(Flush(Step(Flush(Step(s, a)), b)), c)
    ensures PromptRun(s, [a, b, c]) == Flush(Step(Flush(Step(Flush(Step(s, a)), b)), c))
  {
    var s1 := Flush(Step(s, a));
    var s2 := Flush(Step(s1, b));
    PromptRunCons(s, [a, b, c]);
    assert [a, b, c][1..] == [b, c];
    PromptRunCons(s1, [b, c]);
    assert [b, c][1..] == [c];
    PromptRunCons(s2, [c]);
    assert [c][1..] == [];
  }

  /** A prompt run whose first input is enabled takes that step, delivers its ticks, and goes on. */
  lemma PromptRunCons(s: State, inputs: seq<Input>)
    requires |inputs| > 0 && Enabled(s, inputs[0])
    ensures PromptRun(s, inputs) == PromptRun(Flush(Step(s, inputs[0])), inputs[1..])
  {
  }
}

=== FILE: slider.dfy ===
/**
 * One slider instance as an event-driven machine: the constructor, the
 * control clicks, and the delivery of each scheduled callback (the 30 ms
 * incoming tick, a transitionend listener, the 10 ms settle step, and the
 * autoplay timeout). The environment may deliver any scheduled callback at
 * any time; `Step` is one such delivery or one click.
 */
module Slider {
  import opened Options
  import opened SliderState
  import opened Indices
  import opened Transition
  import opened Navigation
  import opened AutoPlay

  /** The state the constructor starts from, before it shows anything. */
  function Initial(cfg: Config, n: nat): (r: State)
    ensures |r.slides| == n && r.showing == -1 && r.allowSliding && !r.autoPlaying
    ensures forall i :: 0 <= i < n ==> r.slides[i] == BuiltSlide({}, false)
  {
    State(seq(n, _ => BuiltSlide({}, false)), -1, Forward, true, false, cfg.autoPlayTiming,
          None, map[], 0, multiset{}, multiset{}, 0, [])
  }

  /**
   * The constructor over `n` built slides. With autoplay it plays (which
   * steps to slide 0) and arms one timeout; without, it pauses and steps to
   * slide 0. Either way slide 0 is coming in, nothing goes out, and no
   * transition is in flight.
   */
  function Construct(cfg: Config, n: nat): (r: State)
    ensures |r.slides| == n && r.showing == 0 && r.dir == Forward
    ensures r.allowSliding && r.settles == 0 && r.listeners == multiset{}
    ensures r.autoPlaying == cfg.autoPlay
    ensures cfg.autoPlay ==> r.timeout == Some(0) && r.timers == map[0 := cfg.autoPlayTiming]
    ensures !cfg.autoPlay ==> r.timers == map[]
    ensures r.timing == cfg.autoPlayTiming && r.nextHandle == if cfg.autoPlay then 1 else 0
    ensures Wf(r) && OneTimer(r)
  {
    var init := Initial(cfg, n);
    if cfg.autoPlay then
      StartsAtFirst(init.(autoPlaying := true));
      MaybeAutoPlay(PlayAutoPlay(init))
    else
      StartsAtFirst(PauseAutoPlay(init));
      Next(PauseAutoPlay(init))
  }

  /** A slider that has built its slides and has not shown any of them yet. */
  predicate Unstarted(s: State)
  {
    && s.showing == -1 && s.allowSliding && s.timeout == None && s.timers == map[] && s.nextHandle == 0
    && s.ticks == multiset{} && s.listeners == multiset{} && s.settles == 0 && s.log == []
    && forall i :: 0 <= i < |s.slides| ==> s.slides[i] == BuiltSlide({}, false)
  }

  /** The first `sliderNext` of an unstarted slider shows slide 0 without blocking. */
  lemma StartsAtFirst(s: State)
    requires Unstarted(s)
    ensures var r := Next(s);
            && r.showing == 0 && r.dir == Forward && r.allowSliding && r.settles == 0
            && r.listeners == multiset{} && r.timers == map[] && r.nextHandle == 0 && r.timeout == None
            && r.autoPlaying == s.autoPlaying && r.timing == s.timing && |r.slides| == |s.slides|
            && Wf(r)
  {
    var x := s.(showing := 0, dir := Forward);
    FirstSlide(x);
    assert Next(s) == Slide(x);
  }

  /**
   * What the constructor shows: slide 0 has an incoming event and a pending
   * tick, and no slide has any class yet, so nothing goes out.
   */
  lemma ConstructShowsFirst(cfg: Config, n: nat)
    ensures Construct(cfg, n).ticks == if n >= 1 then multiset{0} else multiset{}
    ensures Construct(cfg, n).log == if n >= 1 then [SlideIncoming(0)] else []
    ensures forall i :: 0 <= i < n ==> Construct(cfg, n).slides[i] == BuiltSlide({}, false)
  {
    var init := Initial(cfg, n);
    if cfg.autoPlay {
      FirstSlide(init.(autoPlaying := true, showing := 0, dir := Forward));
    } else {
      FirstSlide(PauseAutoPlay(init).(showing := 0, dir := Forward));
    }
  }

  /** The first slide step of a fresh slider: slide 0 comes in, nothing goes out. */
  lemma FirstSlide(s: State)
    requires s.allowSliding && s.showing == 0 && s.dir == Forward && s.timers == map[] && s.nextHandle == 0
    requires s.ticks == multiset{} && s.listeners == multiset{} && s.log == [] && s.settles == 0
    requires forall i :: 0 <= i < |s.slides| ==> s.slides[i] == BuiltSlide({}, false)
    ensures Slide(s).allowSliding && Slide(s).listeners == multiset{} && Slide(s).timers == map[]
    ensures Slide(s).ticks == if |s.slides| >= 1 then multiset{0} else multiset{}
    ensures Slide(s).log == if |s.slides| >= 1 then [SlideIncoming(0)] else []
    ensures Slide(s).slides == s.slides
  {
    var r := Slide(s);
    assert forall i :: !Departs(s.slides, 0, i);
    assert forall i :: r.listeners[i] == 0;
    assert r.listeners == multiset{};
    FirstSlideLog(s);
    forall i | 0 <= i < |s.slides|
      ensures r.slides[i] == s.slides[i]
    {
      if Arrives(s.slides, 0, i) {
        assert r.slides[i] == Arrive(s.slides[i], Forward);
      }
    }
  }

  /** The events of that first step: slide 0 incoming, alone, when there is a slide 0. */
  lemma FirstSlideLog(s: State)
    requires s.allowSliding && s.showing == 0 && s.log == []
    requires forall i :: 0 <= i < |s.slides| ==> s.slides[i] == BuiltSlide({}, false)
    ensures Slide(s).log == if |s.slides| >= 1 then [SlideIncoming(0)] else []
  {
    var r := Slide(s);
    assert forall i :: !Departs(s.slides, 0, i);
    assert r.log[|s.log|..] == r.log;
    forall e | e in r.log
      ensures e == SlideIncoming(0)
    {
      if e.SlideIncoming? {
        assert SlideIncoming(e.slide) in r.log[|s.log|..];
      }
    }
    if |s.slides| >= 1 {
      assert Arrives(s.slides, 0, 0);
      assert SlideIncoming(0) in r.log[|s.log|..];
      SingleNotice(r.log, SlideIncoming(0));
    } else {
      assert forall i :: !Arrives(s.slides, 0, i);
      if |r.log| > 0 {
        HeadNotice(r.log);
        assert false;
      }
    }
  }

  /** Strictly ordered notices that are all one notice, and contain it, are that notice alone. */
  lemma SingleNotice(ns: seq<Notice>, e: Notice)
    requires e in ns && forall x :: x in ns ==> x == e
    requires forall a, b :: 0 <= a < b < |ns| ==> ns[a].slide < ns[b].slide
    ensures ns == [e]
  {
    if |ns| > 1 {
      FirstTwo(ns);
      assert false;
    }
  }

  /** The first two entries of a sequence are among its members. */
  lemma FirstTwo(ns: seq<Notice>)
    requires |ns| > 1
    ensures ns[0] in ns && ns[1] in ns
  {
  }

  /** The 30 ms incoming tick for slide `i`: the slide lands as current. */
  function Tick(s: State, i: int): (r: State)
    ensures r == s.(slides := r.slides, ticks := s.ticks - multiset{i})
    ensures |r.slides| == |s.slides|
    ensures 0 <= i < |s.slides| ==> r.slides[i] == Land(s.slides[i])
    ensures forall j :: 0 <= j < |s.slides| && j != i ==> r.slides[j] == s.slides[j]
  {
    var landed := if 0 <= i < |s.slides| then s.slides[i := Land(s.slides[i])] else s.slides;
    s.(slides := landed, ticks := s.ticks - multiset{i})
  }

  /** The one-shot transitionend listener on slide `i` fires: it is spent, and `afterSlide` runs. */
  function TransitionEnd(s: State, i: int): (r: State)
    ensures r.listeners == s.listeners - multiset{i}
    ensures 0 <= i < |s.slides| && Outgoing in s.slides[i].marks ==>
              && r.settles == s.settles + 1 && |r.slides| == |s.slides|
              && r == s.(slides := r.slides, listeners := s.listeners - multiset{i}, settles := s.settles + 1)
              && r.slides[i] == Finish(s.slides[i])
              && (forall j :: 0 <= j < |s.slides| && j != i ==> r.slides[j] == s.slides[j])
              && (IsCurrent(r, i) <==> IsCurrent(s, i))
    ensures !(0 <= i < |s.slides| && Outgoing in s.slides[i].marks) ==>
              r == s.(listeners := s.listeners - multiset{i})
  {
    AfterSlide(s.(listeners := s.listeners - multiset{i}), i)
  }

  /**
   * The settle step `afterSlide` schedules: slides are allowed again, the
   * slide step replays the latest showing index and direction, and autoplay
   * is re-armed. Because the replayed slide step always runs unblocked, it
   * cancels the stored timeout before a new one is armed.
   */
  function Settle(s: State): (r: State)
    requires s.settles > 0
    ensures r.showing == s.showing && r.dir == s.dir && r.autoPlaying == s.autoPlaying
    ensures r.settles == s.settles - 1
    ensures r.allowSliding <==> !exists i :: Departs(s.slides, s.showing, i)
    ensures s.autoPlaying ==> r.timeout.Some? && r.timeout.value in r.timers && r.timers[r.timeout.value] == s.timing
    ensures s.autoPlaying ==> r.timeout == Some(s.nextHandle) && r.nextHandle == s.nextHandle + 1
    ensures OneTimer(s) && s.autoPlaying ==> r.timers == map[s.nextHandle := s.timing]
    ensures OneTimer(s) ==> OneTimer(r)
    ensures OneTimer(s) && !s.autoPlaying ==> r.timers == map[]
    ensures |s.log| <= |r.log| && r.log[..|s.log|] == s.log
    ensures forall i :: SlideIncoming(i) in r.log[|s.log|..] <==> Arrives(s.slides, s.showing, i)
    ensures forall i :: SlideOutgoing(i) in r.log[|s.log|..] <==> Departs(s.slides, s.showing, i)
    ensures forall a, b :: |s.log| <= a < b < |r.log| ==> r.log[a].slide < r.log[b].slide
    ensures r.timing == s.timing && r.nextHandle >= s.nextHandle
    ensures |r.slides| == |s.slides|
    ensures forall i :: Departs(s.slides, s.showing, i) ==> r.slides[i] == Depart(s.slides[i], s.dir)
    ensures forall i :: Arrives(s.slides, s.showing, i) ==> r.slides[i] == Arrive(s.slides[i], s.dir)
    ensures forall i :: 0 <= i < |s.slides| && !Departs(s.slides, s.showing, i) && !Arrives(s.slides, s.showing, i) ==>
                          r.slides[i] == s.slides[i]
    ensures forall i :: r.listeners[i] == s.listeners[i] + (if Departs(s.slides, s.showing, i) then 1 else 0)
    ensures r.ticks == s.ticks + if Arrives(s.slides, s.showing, s.showing) then multiset{s.showing} else multiset{}
  {
    var unblocked := s.(settles := s.settles - 1, allowSliding := true);
    MaybeAutoPlay(Slide(unblocked))
  }

  /**
   * What the settle step leaves alone: besides the slide step's own fields
   * and the autoplay timeout, only the settle count changes, and when paused
   * the stored handle is kept.
   */
  lemma SettleFrame(s: State)
    requires s.settles > 0
    ensures var r := Settle(s);
            && r == s.(slides := r.slides, allowSliding := r.allowSliding, settles := s.settles - 1,
                       timeout := r.timeout, timers := r.timers, nextHandle := r.nextHandle,
                       ticks := r.ticks, listeners := r.listeners, log := r.log)
            && (!s.autoPlaying ==> r.timeout == s.timeout && r.nextHandle == s.nextHandle)
  {
  }

  /** The autoplay timeout with handle `h` fires: it is spent, and `sliderNext` runs. */
  function Timeout(s: State, h: nat): (r: State)
    ensures h !in r.timers
    ensures r.showing == NextIndex(s.showing, |s.slides|) && r.dir == Forward
    ensures !s.allowSliding ==>
              r == s.(timers := s.timers - {h}, showing := r.showing, dir := Forward)
    ensures s.allowSliding ==> r.timers == Cancel(s.timers - {h}, s.timeout)
    ensures r == Slide(s.(timers := s.timers - {h}, showing := r.showing, dir := Forward))
  {
    Next(s.(timers := s.timers - {h}))
  }

  /** A click on the prev control: pause autoplay, then step back. */
  function ClickPrev(s: State): (r: State)
    ensures !r.autoPlaying
    ensures OneTimer(s) ==> r.timers == map[]
    ensures r.showing == PrevIndex(s.showing, |s.slides|) && r.dir == Reverse
    ensures r == Slide(PauseAutoPlay(s).(showing := r.showing, dir := r.dir))
  {
    Prev(PauseAutoPlay(s))
  }

  /** A click on the next control: pause autoplay, then step forward. */
  function ClickNext(s: State): (r: State)
    ensures !r.autoPlaying
    ensures OneTimer(s) ==> r.timers == map[]
    ensures r.showing == NextIndex(s.showing, |s.slides|) && r.dir == Forward
    ensures r == Slide(PauseAutoPlay(s).(showing := r.showing, dir := r.dir))
  {
    Next(PauseAutoPlay(s))
  }

  /** A click on the direct control of slide `t`: pause autoplay, then jump to `t`. */
  function ClickDirect(s: State, t: int): (r: State)
    ensures !r.autoPlaying
    ensures OneTimer(s) ==> r.timers == map[]
    ensures r.showing == t
    ensures t != s.showing ==> (r.dir == Forward <==> s.showing < t)
    ensures t == s.showing ==> r == PauseAutoPlay(s)
    ensures t != s.showing ==> r == Slide(PauseAutoPlay(s).(showing := t, dir := r.dir))
  {
    GoTo(PauseAutoPlay(s), t)
  }

  /** What can happen next: a click on one of the controls, or a scheduled callback firing. */
  datatype Input =
    | PrevClicked
    | NextClicked
    | DirectClicked(t: int)
    | PlayClicked
    | PauseClicked
    | TickFires(slide: int)
    | TransitionEnds(slide: int)
    | SettleFires
    | TimeoutFires(handle: nat)

  /** Controls exist only for real slides; a callback fires only if it is scheduled. */
  predicate Enabled(s: State, a: Input)
  {
    match a
    case DirectClicked(t) => 0 <= t < |s.slides|
    case TickFires(i) => i in s.ticks
    case TransitionEnds(i) => i in s.listeners
    case SettleFires => s.settles > 0
    case TimeoutFires(h) => h in s.timers
    case _ => true
  }

  function Step(s: State, a: Input): (r: State)
    requires Enabled(s, a)
    ensures a.PrevClicked? || a.NextClicked? || a.DirectClicked? ==> !r.autoPlaying
    ensures a.PlayClicked? ==> r.autoPlaying
  {
    match a
    case PrevClicked => ClickPrev(s)
    case NextClicked => ClickNext(s)
    case DirectClicked(t) => ClickDirect(s, t)
    case PlayClicked => PlayAutoPlay(s)
    case PauseClicked => PauseAutoPlay(s)
    case TickFires(i) => Tick(s, i)
    case TransitionEnds(i) => TransitionEnd(s, i)
    case SettleFires => Settle(s)
    case TimeoutFires(h) => Timeout(s, h)
  }

  /** Runs the inputs in order; an input that is not enabled has no effect. */
  function Run(s: State, inputs: seq<Input>): State
    decreases |inputs|
  {
    if |inputs| == 0 then s
    else Run(if Enabled(s, inputs[0]) then Step(s, inputs[0]) else s, inputs[1..])
  }

  /** Every pending incoming tick fires. */
  function Flush(s: State): (r: State)
    ensures r == s.(slides := r.slides, ticks := multiset{})
    ensures |r.slides| == |s.slides|
    ensures forall i :: 0 <= i < |s.slides| && i in s.ticks ==> r.slides[i] == Land(s.slides[i])
    ensures forall i :: 0 <= i < |s.slides| && i !in s.ticks ==> r.slides[i] == s.slides[i]
  {
    var landed := seq(|s.slides|, i requires 0 <= i < |s.slides| =>
                        if i in s.ticks then Land(s.slides[i]) else s.slides[i]);
    s.(slides := landed, ticks := multiset{})
  }

  /**
   * Delivering one pending tick and then the rest is the same as delivering
   * them all: the order in which ticks fire does not matter.
   */
  lemma FlushAbsorbsTick(s: State, i: int)
    requires i in s.ticks
    ensures Flush(Tick(s, i)) == Flush(s)
  {
    var a := Flush(Tick(s, i));
    var b := Flush(s);
    forall j | 0 <= j < |s.slides|
      ensures a.slides[j] == b.slides[j]
    {
      if j == i {
        assert Land(Land(s.slides[j])) == Land(s.slides[j]);
      }
    }
  }

  /**
   * Runs the inputs in order under prompt ticks: every incoming tick fires
   * before the next input arrives. Inputs that are not enabled are skipped.
   */
  function PromptRun(s: State, inputs: seq<Input>): State
    decreases |inputs|
  {
    if |inputs| == 0 then s
    else PromptRun(if Enabled(s, inputs[0]) then Flush(Step(s, inputs[0])) else s, inputs[1..])
  }
}

=== FILE: state.dfy ===
/** A value that may be absent; models the source's `false`-or-handle fields. */
module Options {

  datatype Option<+T> = None | Some(value: T)
}

/**
 * The state of one slider instance: its built slides (as the CSS classes the
 * core toggles), the navigation fields, the autoplay fields, and the
 * asynchronous callbacks that are scheduled but have not run yet.
 */
module SliderState {
  import opened Options

  /** `slideDirection`: 1 is Forward, -1 is Reverse. */
  datatype Dir = Forward | Reverse

  /** The classes the core adds to and removes from a slide element. */
  datatype Mark =
    | Current           // slider-slide-current
    | Slideable         // slideable
    | Outgoing          // slider-slide-outgoing
    | OutgoingReverse   // slider-slide-outgoing--reverse
    | EnterFromReverse  // slider-slide--enter-from-reverse

  /**
   * One entry of `builtSlides`: the classes on the slide element, and whether
   * its direct control carries slider-control-current.
   */
  datatype BuiltSlide = BuiltSlide(marks: set<Mark>, controlCurrent: bool)

  /** The two custom events the core dispatches, with the index of their target slide. */
  datatype Notice = SlideIncoming(slide: int) | SlideOutgoing(slide: int)

  /** The recognised constructor options. */
  datatype Config = Config(autoPlay: bool, autoPlayTiming: nat)

  const DefaultConfig := Config(false, 6000)

  datatype State = State(
    slides: seq<BuiltSlide>,
    showing: int,              // showingSlide; -1 before the first slide is shown
    dir: Dir,                  // slideDirection
    allowSliding: bool,
    autoPlaying: bool,
    timing: nat,               // autoPlayTiming
    timeout: Option<nat>,      // autoPlayTimeout; None is its initial `false`
    timers: map<nat, nat>,     // live autoplay timeouts: handle -> delay
    nextHandle: nat,           // the handle the next autoplay timeout receives
    ticks: multiset<int>,      // pending 30 ms incoming ticks, by slide index
    listeners: multiset<int>,  // pending one-shot transitionend listeners, by slide index
    settles: nat,              // pending 10 ms settle steps
    log: seq<Notice>)          // every event dispatched so far, oldest first

  predicate IsCurrent(s: State, i: int)
  {
    0 <= i < |s.slides| && Current in s.slides[i].marks
  }

  /**
   * Well-formedness kept by every operation once the constructor has run:
   * the showing index names a slide (or is 0 or -1 when there are no slides),
   * live handles are below the handle counter, and every pending callback
   * targets an existing slide.
   */
  predicate Wf(s: State)
  {
    && (if |s.slides| >= 1 then 0 <= s.showing < |s.slides| else -1 <= s.showing <= 0)
    && (forall h :: h in s.timers ==> h < s.nextHandle)
    && (forall i :: i in s.ticks ==> 0 <= i < |s.slides|)
    && (forall i :: i in s.listeners ==> 0 <= i < |s.slides|)
  }

  /** Every live autoplay timeout is the one whose handle `autoPlayTimeout` holds. */
  predicate OneTimer(s: State)
  {
    forall h :: h in s.timers ==> s.timeout == Some(h)
  }

  /** At most one slide carries slider-slide-current. */
  ghost predicate AtMostOneCurrent(s: State)
  {
    forall i, j :: IsCurrent(s, i) && IsCurrent(s, j) ==> i == j
  }

  /** `clearTimeout(autoPlayTimeout)`, guarded by the handle being a number. */
  function Cancel(timers: map<nat, nat>, handle: Option<nat>): (r: map<nat, nat>)
    ensures forall h :: h in r <==> h in timers && handle != Some(h)
    ensures forall h :: h in r ==> r[h] == timers[h]
  {
    if handle.Some? then timers - {handle.value} else timers
  }

  lemma OneTimerAtMostOne(s: State)
    requires OneTimer(s)
    ensures |s.timers| <= 1
  {
    if s.timeout.Some? {
      assert s.timers.Keys <= {s.timeout.value};
      SubsetCard(s.timers.Keys, {s.timeout.value});
    } else {
      assert s.timers.Keys == {};
    }
  }

  lemma SubsetCard<T>(a: set<T>, b: set<T>)
    requires a <= b
    ensures |a| <= |b|
  {
    assert b == a + (b - a);
  }
}

=== FILE: transition.dfy ===
/**
 * The transition engine: `slide()`, which marks the slide leaving "current"
 * as outgoing and the showing slide as incoming, the deferred incoming tick,
 * and `afterSlide`, which clears an outgoing slide once its CSS transition ends.
 */
module Transition {
  import opened Options
  import opened SliderState

  /** Slide `i` carries "current" but is not the showing slide: `slide()` sends it out. */
  predicate Departs(slides: seq<BuiltSlide>, showing: int, i: int)
  {
    0 <= i < |slides| && i != showing && Current in slides[i].marks
  }

  /** Slide `i` is the showing slide and does not carry "current" yet: `slide()` brings it in. */
  predicate Arrives(slides: seq<BuiltSlide>, showing: int, i: int)
  {
    0 <= i < |slides| && i == showing && Current !in slides[i].marks
  }

  /** The outgoing treatment of a departing slide and its control. */
  function Depart(m: BuiltSlide, dir: Dir): (r: BuiltSlide)
    ensures Outgoing in r.marks
    ensures Current !in r.marks && EnterFromReverse !in r.marks && !r.controlCurrent
    ensures OutgoingReverse in r.marks <==> dir == Reverse || OutgoingReverse in m.marks
    ensures Slideable in r.marks <==> Slideable in m.marks
  {
    var reverse := if dir == Reverse then {OutgoingReverse} else {};
    BuiltSlide(m.marks + reverse + {Outgoing} - {Current, EnterFromReverse}, false)
  }

  /** The immediate treatment of an arriving slide: only the reverse-entry class. */
  function Arrive(m: BuiltSlide, dir: Dir): (r: BuiltSlide)
    ensures EnterFromReverse in r.marks <==> dir == Reverse || EnterFromReverse in m.marks
    ensures forall k :: k != EnterFromReverse ==> (k in r.marks <==> k in m.marks)
    ensures r.controlCurrent == m.controlCurrent
  {
    if dir == Reverse then m.(marks := m.marks + {EnterFromReverse}) else m
  }

  /** The 30 ms tick: the arriving slide becomes slideable and current, and so does its control. */
  function Land(m: BuiltSlide): (r: BuiltSlide)
    ensures Slideable in r.marks && Current in r.marks && r.controlCurrent
    ensures forall k :: k != Slideable && k != Current ==> (k in r.marks <==> k in m.marks)
  {
    BuiltSlide(m.marks + {Slideable, Current}, true)
  }

  /** `afterSlide` on an outgoing slide: the animation classes come off. */
  function Finish(m: BuiltSlide): (r: BuiltSlide)
    ensures Slideable !in r.marks && Outgoing !in r.marks && OutgoingReverse !in r.marks
    ensures Current in r.marks <==> Current in m.marks
    ensures EnterFromReverse in r.marks <==> EnterFromReverse in m.marks
    ensures r.controlCurrent == m.controlCurrent
  {
    m.(marks := m.marks - {Slideable, Outgoing, OutgoingReverse})
  }

  /** What the loop of `slide()` has produced after visiting slides[..k]. */
  datatype Sweep = Sweep(
    slides: seq<BuiltSlide>,
    notices: seq<Notice>,
    ticks: multiset<int>,
    listeners: multiset<int>,
    departed: bool)

  /**
   * The loop of `slide()` over the first `k` slides, in index order: departing
   * slides are sent out, with a transitionend listener and an outgoing event;
   * the arriving slide gets its reverse-entry class, a pending tick and an
   * incoming event; every other slide is left alone. What each slide receives
   * is stated by the Sweep lemmas below.
   */
  function SweepUpTo(slides: seq<BuiltSlide>, showing: int, dir: Dir, k: nat): (r: Sweep)
    requires k <= |slides|
    ensures |r.slides| == k
  {
    if k == 0 then
      Sweep([], [], multiset{}, multiset{}, false)
    else
      var p := SweepUpTo(slides, showing, dir, k - 1);
      var i := k - 1;
      if Departs(slides, showing, i) then
        Sweep(p.slides + [Depart(slides[i], dir)], p.notices + [SlideOutgoing(i)],
              p.ticks, p.listeners + multiset{i}, true)
      else if Arrives(slides, showing, i) then
        Sweep(p.slides + [Arrive(slides[i], dir)], p.notices + [SlideIncoming(i)],
              p.ticks + multiset{i}, p.listeners, p.departed)
      else
        Sweep(p.slides + [slides[i]], p.notices, p.ticks, p.listeners, p.departed)
  }

  /** Each visited slide receives exactly the treatment its role calls for. */
  lemma {:induction false} SweepSlides(slides: seq<BuiltSlide>, showing: int, dir: Dir, k: nat)
    requires k <= |slides|
    ensures forall i :: 0 <= i < k && Departs(slides, showing, i) ==>
                          SweepUpTo(slides, showing, dir, k).slides[i] == Depart(slides[i], dir)
    ensures forall i :: 0 <= i < k && Arrives(slides, showing, i) ==>
                          SweepUpTo(slides, showing, dir, k).slides[i] == Arrive(slides[i], dir)
    ensures forall i :: 0 <= i < k && !Departs(slides, showing, i) && !Arrives(slides, showing, i) ==>
                          SweepUpTo(slides, showing, dir, k).slides[i] == slides[i]
  {
    if k > 0 {
      SweepSlides(slides, showing, dir, k - 1);
      var p := SweepUpTo(slides, showing, dir, k - 1);
      var r := SweepUpTo(slides, showing, dir, k);
      assert forall i :: 0 <= i < k - 1 ==> r.slides[i] == p.slides[i];
    }
  }

  /** The loop blocks further slides exactly when some slide departs. */
  lemma {:induction false} SweepDeparted(slides: seq<BuiltSlide>, showing: int, dir: Dir, k: nat)
    requires k <= |slides|
    ensures SweepUpTo(slides, showing, dir, k).departed <==> exists i :: 0 <= i < k && Departs(slides, showing, i)
  {
    if k > 0 {
      SweepDeparted(slides, showing, dir, k - 1);
      var p := SweepUpTo(slides, showing, dir, k - 1);
      if p.departed {
        var j :| 0 <= j < k - 1 && Departs(slides, showing, j);
        assert 0 <= j < k && Departs(slides, showing, j);
      }
    }
  }

  /** The loop registers one transitionend listener per departing slide. */
  lemma {:induction false} SweepListeners(slides: seq<BuiltSlide>, showing: int, dir: Dir, k: nat)
    requires k <= |slides|
    ensures forall i :: SweepUpTo(slides, showing, dir, k).listeners[i] ==
                          (if 0 <= i < k && Departs(slides, showing, i) then 1 else 0)
  {
    if k > 0 {
      SweepListeners(slides, showing, dir, k - 1);
      var p := SweepUpTo(slides, showing, dir, k - 1);
      var r := SweepUpTo(slides, showing, dir, k);
      if Departs(slides, showing, k - 1) {
        assert r.listeners == p.listeners + multiset{k - 1};
      } else {
        assert r.listeners == p.listeners;
      }
    }
  }

  /** The loop schedules one tick, for the arriving slide, if there is one. */
  lemma {:induction false} SweepTicks(slides: seq<BuiltSlide>, showing: int, dir: Dir, k: nat)
    requires k <= |slides|
    ensures SweepUpTo(slides, showing, dir, k).ticks ==
              if showing < k && Arrives(slides, showing, showing) then multiset{showing} else multiset{}
  {
    if k > 0 {
      SweepTicks(slides, showing, dir, k - 1);
    }
  }

  /**
   * The loop dispatches one outgoing event per departing slide and one
   * incoming event for the arriving slide.
   */
  lemma {:induction false} SweepNotices(slides: seq<BuiltSlide>, showing: int, dir: Dir, k: nat)
    requires k <= |slides|
    ensures forall i :: SlideOutgoing(i) in SweepUpTo(slides, showing, dir, k).notices <==>
                          0 <= i < k && Departs(slides, showing, i)
    ensures forall i :: SlideIncoming(i) in SweepUpTo(slides, showing, dir, k).notices <==>
                          0 <= i < k && Arrives(slides, showing, i)
  {
    if k > 0 {
      SweepNotices(slides, showing, dir, k - 1);
      var p := SweepUpTo(slides, showing, dir, k - 1);
      var r := SweepUpTo(slides, showing, dir, k);
      assert r.notices == p.notices || r.notices == p.notices + [r.notices[|r.notices| - 1]];
    }
  }

  /** The loop dispatches its events in increasing slide order, each for a visited slide. */
  lemma {:induction false} SweepNoticesOrdered(slides: seq<BuiltSlide>, showing: int, dir: Dir, k: nat)
    requires k <= |slides|
    ensures forall a, b :: 0 <= a < b < |SweepUpTo(slides, showing, dir, k).notices| ==>
                             SweepUpTo(slides, showing, dir, k).notices[a].slide <
                             SweepUpTo(slides, showing, dir, k).notices[b].slide
    ensures forall a :: 0 <= a < |SweepUpTo(slides, showing, dir, k).notices| ==>
                          SweepUpTo(slides, showing, dir, k).notices[a].slide < k
  {
    if k > 0 {
      SweepNoticesOrdered(slides, showing, dir, k - 1);
      var p := SweepUpTo(slides, showing, dir, k - 1);
      var r := SweepUpTo(slides, showing, dir, k);
      assert forall a :: 0 <= a < |p.notices| ==> r.notices[a] == p.notices[a];
      assert |r.notices| == |p.notices| || r.notices[|p.notices|].slide == k - 1;
    }
  }

  /**
   * `slide()`. While a transition is in flight it does nothing. Otherwise it
   * cancels the autoplay timeout, sends out every slide that is current but
   * not showing (blocking further slides), brings in the showing slide unless
   * it is already current, and leaves all other slides alone.
   */
  function Slide(s: State): (r: State)
    ensures !s.allowSliding ==> r == s
    ensures s.allowSliding ==>
              r == s.(slides := r.slides, allowSliding := r.allowSliding, timers := r.timers,
                      ticks := r.ticks, listeners := r.listeners, log := r.log)
    ensures s.allowSliding ==> r.timers == Cancel(s.timers, s.timeout)
    ensures s.allowSliding ==> (r.allowSliding <==> !exists i :: Departs(s.slides, s.showing, i))
    ensures s.allowSliding ==> |r.slides| == |s.slides|
    ensures s.allowSliding ==>
              forall i :: Departs(s.slides, s.showing, i) ==> r.slides[i] == Depart(s.slides[i], s.dir)
    ensures s.allowSliding ==>
              forall i :: Arrives(s.slides, s.showing, i) ==> r.slides[i] == Arrive(s.slides[i], s.dir)
    ensures s.allowSliding ==>
              forall i :: 0 <= i < |s.slides| && !Departs(s.slides, s.showing, i) && !Arrives(s.slides, s.showing, i) ==>
                            r.slides[i] == s.slides[i]
    ensures s.allowSliding ==>
              forall i :: r.listeners[i] == s.listeners[i] + (if Departs(s.slides, s.showing, i) then 1 else 0)
    ensures s.allowSliding ==>
              r.ticks == s.ticks + if Arrives(s.slides, s.showing, s.showing) then multiset{s.showing} else multiset{}
    ensures s.allowSliding ==> |s.log| <= |r.log| && r.log[..|s.log|] == s.log
    ensures s.allowSliding ==>
              forall i :: SlideOutgoing(i) in r.log[|s.log|..] <==> Departs(s.slides, s.showing, i)
    ensures s.allowSliding ==>
              forall i :: SlideIncoming(i) in r.log[|s.log|..] <==> Arrives(s.slides, s.showing, i)
    ensures s.allowSliding ==>
              forall a, b :: |s.log| <= a < b < |r.log| ==> r.log[a].slide < r.log[b].slide
  {
    if !s.allowSliding then
      s
    else
      var w := SweepUpTo(s.slides, s.showing, s.dir, |s.slides|);
      SweepSlides(s.slides, s.showing, s.dir, |s.slides|);
      SweepDeparted(s.slides, s.showing, s.dir, |s.slides|);
      SweepListeners(s.slides, s.showing, s.dir, |s.slides|);
      SweepTicks(s.slides, s.showing, s.dir, |s.slides|);
      SweepNotices(s.slides, s.showing, s.dir, |s.slides|);
      SweepNoticesOrdered(s.slides, s.showing, s.dir, |s.slides|);
      assert (s.log + w.notices)[|s.log|..] == w.notices;
      s.(slides := w.slides,
         allowSliding := !w.departed,
         timers := Cancel(s.timers, s.timeout),
         ticks := s.ticks + w.ticks,
         listeners := s.listeners + w.listeners,
         log := s.log + w.notices)
  }

  /**
   * A slide step with nothing to send out and nothing to bring in only
   * cancels the stored timeout: no class changes, no listener, no tick and
   * no event.
   */
  lemma SlideQuiet(s: State)
    requires s.allowSliding
    requires forall i :: !Departs(s.slides, s.showing, i) && !Arrives(s.slides, s.showing, i)
    ensures Slide(s) == s.(timers := Cancel(s.timers, s.timeout))
  {
    var r := Slide(s);
    var added := r.log[|s.log|..];
    if |added| > 0 {
      HeadNotice(added);
      assert false;
    }
    assert r.log == s.log + added;
    assert r.slides == s.slides;
    assert forall i :: r.listeners[i] == s.listeners[i];
    assert r.listeners == s.listeners;
  }

  /** The first notice of a non-empty sequence is one of its notices, whichever kind it is. */
  lemma HeadNotice(ns: seq<Notice>)
    requires |ns| > 0
    ensures ns[0].SlideOutgoing? ==> SlideOutgoing(ns[0].slide) in ns
    ensures ns[0].SlideIncoming? ==> SlideIncoming(ns[0].slide) in ns
  {
  }

  /**
   * `afterSlide(outgoing)`: for a slide that still carries the outgoing class,
   * clears its animation classes and schedules one settle step; for any other
   * slide it does nothing.
   */
  function AfterSlide(s: State, i: int): (r: State)
    ensures !(0 <= i < |s.slides| && Outgoing in s.slides[i].marks) ==> r == s
    ensures 0 <= i < |s.slides| && Outgoing in s.slides[i].marks ==>
              && r == s.(slides := r.slides, settles := s.settles + 1)
              && |r.slides| == |s.slides|
              && r.slides[i] == Finish(s.slides[i])
              && (forall j :: 0 <= j < |s.slides| && j != i ==> r.slides[j] == s.slides[j])
  {
    if 0 <= i < |s.slides| && Outgoing in s.slides[i].marks then
      s.(slides := s.slides[i := Finish(s.slides[i])], settles := s.settles + 1)
    else
      s
  }
}
